=== FILE: README.md ===
# Faker instantiation engine in Dafny

A model of the recursive instantiation engine in the `Faker` library. Given a
type, `Create` builds an instance of it:

- a type with a registered generator gets that generator's next value;
- a generic type gets a list of its first type argument, built by the list
  generator and cast element by element (`CastList`);
- a class is constructed by the first constructor that succeeds, tried in
  descending parameter count (`CreateWithConstructor`). Its public fields are
  then filled (`FillFields`), and so are its writable properties
  (`FillProperties`). Each of these values comes from a nested `Create`.

A stack of the types under construction, `circleStack`, guards the recursion.
A sixth nested call raises the circle-dependency exception. The generator
dictionary is filled by `AddGenerators`, where the first generator registered
for a type wins.

Modules:

- `Types`: the data model.
  - A type is an identifier, and a `Descriptor` says what reflection would
    report about it.
  - The `Env` carries the generator dictionary and the oracles for everything
    the engine calls but does not own: the generators, the list generator,
    `Convert.ChangeType`, `ConstructorInfo.Invoke`, and the `SetValue` of
    each field and property. Each oracle also says whether the call throws:
    the generators, the list generator and `Convert.ChangeType` return no
    value when they do, and the others answer whether the call returns.
  - The engine `State` is the guard stack plus a count of generator calls. The
    count stands for the state of the shared `Random`.
- `CtorOrder`: the constructor order, modelled as a stable sort by descending
  arity. LINQ's `OrderByDescending` is stable.
- `Registration`: the first-wins insert of `AddGenerators`.
- `Engine`: `Create`, `CreateWithConstructor`, `FillFields`,
  `FillProperties` and `CastList`. They are mutually recursive total functions
  that return the outcome together with the state the engine is left in, and
  they terminate on the depth guard alone.
- `EngineProps`: the properties of each path.
- `Scenarios`: worked examples on a small universe of types, proved by unfolding the definitions.

Where informal descriptions of the library differ from its code, the model
follows the code:

- A type that is neither registered, generic nor a class is pushed on the
  guard and never popped (`Faker/Faker.cs:105`, `:129`). The final `Pop` of
  an enclosing class then removes that leaked entry instead of the class
  itself. `EngineProps.FallThroughLeaks`, `EngineProps.ClassPathPops` and
  `Scenarios.HolderLeaksItself` state the consequences.
- No exception pops the guard, because there is no `finally`. A circle error
  therefore leaves the guard full, and every later call on the same engine
  fails (`EngineProps.CircleErrorPersists`; `Scenarios.CircleErrorPoisonsEngine`
  is a worked example). On the class path, an exception from construction,
  `FillFields` or `FillProperties` escapes `Create` with the state it left
  (`EngineProps.ConstructionErrorEscapes`, `EngineProps.FieldErrorEscapes`,
  `EngineProps.PropertyErrorEscapes`).
- An exception thrown by a registered generator or by the list generator is
  not caught either (`Faker/Faker.cs:111`, `:118`). It escapes `Create`, and
  while a constructor's arguments are being created it aborts the whole
  selection (`EngineProps.ArgumentErrorEscapes`) instead of moving on to the
  next constructor.
- When no constructor succeeds, `CreateWithConstructor` returns `null`. The
  following `FillFields(null)` dereferences it and throws
  (`Faker/Faker.cs:78`). A class that cannot be constructed is therefore an
  error, not a silent `null` (`EngineProps.AllConstructorsFail`).
- `Convert.ChangeType` in `CastList` is not guarded, so a failed conversion
  escapes `Create` (`EngineProps.GenericList`).
- `SetValue` in `FillFields` and `FillProperties` is not guarded either. A
  setter that throws, a writable indexer (no index arguments are passed), or
  a value of the wrong type makes `Create` raise, with the class left on the
  guard.
- The generic path does not rebuild the requested collection. `CastList`
  always returns a `List<E>` of the first type argument `E`
  (`Faker/Faker.cs:119`, `:134`), so a request for `HashSet<int>`,
  `Dictionary<int, string>` or `int?` also yields a `List<int>`. Its elements
  come from the list generator, which is handed only the shared `Random`
  (`Faker/Faker.cs:117`), not from nested `Create` calls on this engine; the
  guard and the registry play no part in them (`EngineProps.GenericList`).

## Model

| member | source | states |
|---|---|---|
| Engine.Create | Faker/Faker.cs:99-130 | No call lowers the guard or the generator-call count. The guard never grows past five, except by returning unchanged. A value returned has the shape of the path that handled the type: a generator's output, a `List` of the first type argument, a populated object of the class, or `null`. No nesting is deeper than the guard allows. When every type is handled by some path, a successful call leaves the guard exactly as it found it. A circle error leaves the guard full. |
| Engine.ClassPath | Faker/Faker.cs:121-128 | The class path: construction runs with the class pushed, and the result fits the class. When no type falls through, a successful call restores the guard. |
| Engine.Populate | Faker/Faker.cs:124 | Field filling, started with the class still pushed. A null object (no constructor succeeded) raises a null-reference error. A successful run yields a reference to an object of the class, with arguments fitting its constructor and every field and writable property assigned. |
| Engine.Finish | Faker/Faker.cs:125-127 | Property filling and the final pop. The guard never ends below where `Create` found it, and a successful run's object fits the class. |
| Engine.CreateWithConstructor | Faker/Faker.cs:51-75 | The attempts follow the arity order of the type's constructors. Every failed attempt precedes the last one. An object is built exactly when the last attempt succeeded, and only with that attempt's constructor and arguments. When nothing is built, every constructor was tried. |
| Engine.TryCtors | Faker/Faker.cs:56-73 | The loop over candidates. The trace lists the given constructors in order, with each attempt's arguments fitting the parameter types and its outcome being the invocation's result. |
| Engine.CreateAll | Faker/Faker.cs:58-63 | One value per parameter type, each fitting its type, created in parameter order. |
| Engine.FillFields | Faker/Faker.cs:76-84 | On `null` it raises a null-reference error and leaves the state alone. Otherwise, on success, every public field holds a value that fits its type and that its setter accepted, and nothing else in the object changes. |
| Engine.FillFieldsFrom | Faker/Faker.cs:79-82 | On success the fields from index `i` on hold values that fit their types and that their setters accepted. Earlier fields and the rest of the object are untouched. |
| Engine.FillProperties | Faker/Faker.cs:85-94 | On `null` it raises a null-reference error. Otherwise, on success, every writable property holds a value that fits its type and that its setter accepted. Read-only properties and the rest of the object are untouched. |
| Engine.FillPropertiesFrom | Faker/Faker.cs:88-92 | On success the writable properties from index `i` on hold values that fit their types and that their setters accepted. Read-only properties are left alone. |
| Engine.CastList | Faker/Faker.cs:132-141 | On success the result has the same length as the input, and each element is the conversion of the input element at the same position. It fails exactly when some element does not convert, and the failure is a conversion error. |
| Engine.Pop | Faker/Faker.cs:126 | `Stack.Pop` removes the topmost entry, whichever type it is, and leaves the call count alone. |
| Engine.Push | Faker/Faker.cs:105 | `Stack.Push` puts the type on top, one entry higher, and a `Pop` right after undoes it. |
| CtorOrder.Tagged | Faker/Faker.cs:54 | The reflection array, with each constructor tagged by its position. |
| CtorOrder.Insert | Faker/Faker.cs:54 | Inserting a constructor adds exactly that element. |
| CtorOrder.SortByArity | Faker/Faker.cs:54 | The sort is a permutation of its input. |
| CtorOrder.InsertPermutes | Faker/Faker.cs:54 | As multisets, insertion adds exactly one copy of the new constructor. |
| CtorOrder.SortDescendingStable | Faker/Faker.cs:54 | When the input is in reflection order, the sorted result has non-increasing arity, and ties keep reflection order. |
| CtorOrder.OrderedSpec | Faker/Faker.cs:54 | The trial order is a permutation of the type's constructors. Arity never increases along it, and constructors of equal arity keep the order reflection reported them in. A constructor appears in it iff it is one of the type's constructors. |
| Registration.Register | Faker/Faker.cs:35-38 | A generator is filed under its produced type only if that key is absent. Existing entries, null ones included, are kept. |
| Registration.SecondRegistrationIgnored | Faker/Faker.cs:35-36 | Registering a second generator for an already registered type changes nothing, and the first generator stays. |
| Registration.FirstForProduces | Faker/Faker.cs:29-39 | The first generator found for a key produces that key. One exists iff some generator in the list produces it. |
| Registration.AddGenerators | Faker/Faker.cs:26-41 | Keys already present keep their entries. A key ends up present iff it was present or some generator produces it. Each new key holds the first generator of the list that produces it. A dictionary whose every entry is keyed by its produced type stays so. |
| EngineProps.CircleGuard | Faker/Faker.cs:101-104 | With five or more types on the guard, `Create` raises the circle-dependency error and changes no state. |
| EngineProps.RegisteredGenerator | Faker/Faker.cs:105-112 | A non-null registered generator: the result is that generator's next output, or the generator's exception, from exactly one generator call, and the guard is back where it was. |
| EngineProps.CircleErrorPersists | Faker/Faker.cs:101-104 | After any `Create` that raises the circle error, every later `Create` on the state it left raises the circle error and changes nothing. |
| EngineProps.NullEntryFallsThrough | Faker/Faker.cs:106-113 | A dictionary entry holding `null` is no generator, and dispatch goes on to the later paths. |
| EngineProps.GenericList | Faker/Faker.cs:114-120 | A generic type yields a list of its first type argument. The list holds the list generator's output converted element by element, in the same order and number, from one generator call with the guard restored. If the list generator throws, its exception escapes with the same state. Otherwise the call fails, with a conversion error, exactly when some element does not convert. |
| EngineProps.FallThroughLeaks | Faker/Faker.cs:105-129 | A type no path handles yields `null`, and its guard entry stays pushed. |
| EngineProps.ClassPathPops | Faker/Faker.cs:121-127 | A successful class path returns the object `FillProperties` produced, in the state it left minus the topmost guard entry. If the nested calls restored the guard, the guard ends as `Create` found it. If they leaked entries, the class itself stays on the guard. |
| EngineProps.ConstructionErrorEscapes | Faker/Faker.cs:121-123 | An exception during constructor selection escapes `Create` with the state selection left; nothing is popped. |
| EngineProps.FieldErrorEscapes | Faker/Faker.cs:123-124 | An exception from `FillFields`, including the one for a `null` object, escapes `Create` with the state it left; `FillProperties` does not run and nothing is popped. |
| EngineProps.PropertyErrorEscapes | Faker/Faker.cs:125-126 | An exception from `FillProperties` escapes `Create` with the state it left; nothing is popped. |
| EngineProps.AllConstructorsFail | Faker/Faker.cs:64-78 | When no constructor yields an object, every constructor was tried and failed, and `Create` raises a null-reference error instead of returning `null`. |
| EngineProps.NothingChosen | Faker/Faker.cs:56-74 | A selection that built no object tried every constructor of the type, and every attempt failed. |
| EngineProps.NoConstructorIsError | Faker/Faker.cs:54-78 | A class without public constructors cannot be created: `Create` raises a null-reference error with the class still pushed. |
| EngineProps.SelectionOrder | Faker/Faker.cs:54-73 | Constructors are tried by non-increasing parameter count, ties in reflection order, each at most once, and only the type's own. Every constructor with more parameters than the one used was tried earlier and failed. |
| EngineProps.TriedInOrder | Faker/Faker.cs:54-58 | A selection trace has non-increasing arity, no repeated constructor, and only constructors of the type. |
| EngineProps.HeavierTriedFirst | Faker/Faker.cs:54-71 | Every constructor heavier than the chosen one was tried before it and failed. |
| EngineProps.OrderedDistinct | Faker/Faker.cs:54 | No constructor occurs twice in the trial order. |
| EngineProps.FirstErrorEscapes | Faker/Faker.cs:60-63 | Argument creation stops at the first `Create` that raises. That exception and the state it left are the outcome, and no later parameter is created. |
| EngineProps.ArgumentErrorEscapes | Faker/Faker.cs:60-63 | An exception while creating a constructor's arguments is outside the `try`: it escapes the selection, with no further constructor tried. |
| EngineProps.InvocationSuccessReturns | Faker/Faker.cs:58-67 | The first constructor whose invocation returns gives the result. The object is built from exactly the arguments created for it, one `Create` per parameter in order, and no later constructor is tried. |
| EngineProps.InvocationFailureSwallowed | Faker/Faker.cs:64-72 | A failed invocation is swallowed. Selection goes on with the next constructor from the state that argument creation left, and records the failed attempt first. |
| EngineProps.FieldsFollowCreateAll | Faker/Faker.cs:79-82 | Filling the fields runs one `Create` per field type in field order, as creating those values in sequence does, with each value handed to its field's setter. It succeeds iff every value is created and accepted. It then ends in the same state, and each field holds the value created for its position. Where creating all values succeeds, a fill can fail only by a refused assignment. When no setter refuses, the outcome and state are exactly those of creating the values. |
| EngineProps.WritableRank | Faker/Faker.cs:88-91 | The writable property at index `k` is the next one after the writable properties that precede it. |
| EngineProps.PropsFollowCreateAll | Faker/Faker.cs:88-92 | Filling the properties runs one `Create` per writable property type in property order, as creating those values in sequence does, with each value handed to its property's setter. It succeeds iff every value is created and accepted. It then ends in the same state, and each writable property holds the value created for its rank. Where creating all values succeeds, a fill can fail only by a refused assignment. When no setter refuses, the outcome and state are exactly those of creating the values. |
| EngineProps.SelfFieldNeverCreated | Faker/Faker.cs:76-82 | In any environment and from any state, a class with a public field of its own type can never be created: `Create` always raises. |
| EngineProps.NoFiniteSelf | Faker/Faker.cs:76-82 | No value fits such a class, since a populated object of it would need a smaller one in that field. |
| Scenarios.SelfIsCircular | Faker/Faker.cs:101-126 | For the example class `Self` (one constructor without parameters, one field of type `Self`): the error is the circle-dependency one, and it escapes with one `Self` entry per level still on the guard. |
| Scenarios.CircleErrorPoisonsEngine | Faker/Faker.cs:101-104 | After that failure the guard stays full, and every later `Create` on the same engine fails. |
| Scenarios.PairIsBuilt | Faker/Faker.cs:99-127 | A two-`int` constructor runs with two generated values. Both writable properties are then overwritten with fresh ones: four generator calls, and the guard ends empty. |
| Scenarios.HolderLeaksItself | Faker/Faker.cs:121-129 | A class whose field type falls through succeeds, but its own type remains on the guard afterwards. |
| Scenarios.HolderAssignmentFails | Faker/Faker.cs:76-125 | When assigning `Holder`'s field throws, the exception escapes `Create`. `Holder` and the fallen-through `Point` both stay on the guard. |

## Left out

- `LoadPlugins` (`Faker/Faker.cs:42-50`): it enumerates a hard-coded directory
  and loads DLLs. This is file-system I/O and dynamic loading.
- Assembly scanning in `AddGenerators` (`Faker/Faker.cs:28-34`): finding the
  `IDTOGenerator` classes and invoking their first constructor is reflection.
  `Registration.AddGenerators` receives the generators already built, in
  assembly order.
- The constructor `Faker()` (`Faker/Faker.cs:18-25`): it creates the
  dictionary and the guard, then runs the two loaders above. A fresh engine is
  `State([], 0)` with a caller-chosen registry.
- `Random` and the generators' internals: they are oracles of the `Env`,
  indexed by the generator-call count. The list generator's choice of length
  and its nested values are opaque.
- Reflection semantics: `Activator.CreateInstance`, the
  `(List<object>)` cast of the list generator's output, and the `(T)` cast in
  `Create<T>` (`Faker/Faker.cs:95-98`) are not modelled. A type with more than
  one type argument is treated like a one-argument generic, as the code does.
- What makes `SetValue` or `ConstructorInfo.Invoke` throw: the setter oracles
  decide from the type, the member index and the value alone, and the
  invocation oracle from the type, the constructor and the arguments alone. A
  setter whose outcome depends on the object's earlier state, or a constructor
  whose outcome depends on hidden state (a static counter, its own `Random`,
  the clock), is modelled as deterministic in those inputs.
- The check `constructors == null` (`Faker/Faker.cs:55`) is dead code, because
  `GetConstructors()` never returns `null`.
- EngineProps.FieldsFollowCreateAll, EngineProps.PropsFollowCreateAll: when a
  setter refuses a value while creating the values in sequence would go on,
  these lemmas say the fill fails by the refusal. They do not name the state
  it stops in, which `Engine.FillFieldsFrom` and `Engine.FillPropertiesFrom`
  define as the state after the refused value's `Create`.
- Engine.Create: its own contract states invariants (guard discipline, type
  fit, depth, a full guard after a circle error), not the full input-output
  relation. The relation per path is stated by the `EngineProps` lemmas:
  `CircleGuard`, `RegisteredGenerator`, `GenericList`, `NullEntryFallsThrough`,
  `FallThroughLeaks`, and for classes `ClassPathPops`,
  `ConstructionErrorEscapes`, `FieldErrorEscapes` and `PropertyErrorEscapes`.
- Thread safety: `circleStack` and the dictionary are shared mutable state,
  and the model is sequential.

=== FILE: ctor_order.dfy ===
/**
 The order in which `CreateWithConstructor` tries constructors:
 `GetConstructors().OrderByDescending(c => c.GetParameters().Length)`.
 LINQ's `OrderByDescending` is a stable sort, so constructors of equal arity
 keep the order `GetConstructors()` reported them in.
 */
module CtorOrder {
  import opened Types

  function Arity(c: Ctor): nat {
    |c.params|
  }

  /** The constructors of a type, each tagged with its position in the reflection array. */
  function Tagged(ctors: seq<seq<TypeId>>): (r: seq<Ctor>)
    ensures |r| == |ctors|
    ensures forall i :: 0 <= i < |r| ==> r[i].index == i && r[i].params == ctors[i]
  {
    seq(|ctors|, i requires 0 <= i < |ctors| => Ctor(i, ctors[i]))
  }

  /** Arity never increases along `s`. */
  ghost predicate Descending(s: seq<Ctor>) {
    forall i, j :: 0 <= i < j < |s| ==> Arity(s[i]) >= Arity(s[j])
  }

  /** Constructors of equal arity appear in increasing reflection order. */
  ghost predicate StableOn(s: seq<Ctor>) {
    forall i, j :: 0 <= i < j < |s| && Arity(s[i]) == Arity(s[j]) ==> s[i].index < s[j].index
  }

  ghost predicate IncreasingIndex(s: seq<Ctor>) {
    forall i, j :: 0 <= i < j < |s| ==> s[i].index < s[j].index
  }

  /** Places `c` in front of the first constructor whose arity is not larger than its own. */
  function Insert(c: Ctor, s: seq<Ctor>): (r: seq<Ctor>)
    ensures forall x :: x in r <==> x == c || x in s
    ensures |r| == |s| + 1
  {
    if s == [] then [c]
    else if Arity(s[0]) <= Arity(c) then [c] + s
    else
      assert s == [s[0]] + s[1..];
      [s[0]] + Insert(c, s[1..])
  }

  /** A stable sort by descending arity. */
  function SortByArity(s: seq<Ctor>): (r: seq<Ctor>)
    ensures multiset(r) == multiset(s)
    ensures forall x :: x in r <==> x in s
    ensures |r| == |s|
  {
    if s == [] then []
    else
      assert s == [s[0]] + s[1..];
      InsertPermutes(s[0], SortByArity(s[1..]));
      Insert(s[0], SortByArity(s[1..]))
  }

  lemma {:induction false} InsertPermutes(c: Ctor, s: seq<Ctor>)
    ensures multiset(Insert(c, s)) == multiset(s) + multiset{c}
    decreases |s|
  {
    if s != [] && Arity(s[0]) > Arity(c) {
      InsertPermutes(c, s[1..]);
      assert s == [s[0]] + s[1..];
    }
  }

  /** The constructors of a type in the order they are tried. */
  function Ordered(ctors: seq<seq<TypeId>>): seq<Ctor> {
    SortByArity(Tagged(ctors))
  }

  lemma DescendingHead(s: seq<Ctor>, x: Ctor)
    requires Descending(s) && x in s
    ensures Arity(x) <= Arity(s[0])
  {
    var k :| 0 <= k < |s| && s[k] == x;
    if k > 0 {
      assert Arity(s[0]) >= Arity(s[k]);
    }
  }

  lemma {:induction false} InsertDescending(c: Ctor, s: seq<Ctor>)
    requires Descending(s)
    ensures Descending(Insert(c, s))
    decreases |s|
  {
    if s == [] {
    } else if Arity(s[0]) <= Arity(c) {
      var r := Insert(c, s);
      assert r == [c] + s;
      forall i, j | 0 <= i < j < |r| ensures Arity(r[i]) >= Arity(r[j]) {
        if i == 0 {
          assert r[j] == s[j - 1];
          DescendingHead(s, r[j]);
        } else {
          assert r[i] == s[i - 1] && r[j] == s[j - 1];
        }
      }
    } else {
      var t := Insert(c, s[1..]);
      InsertDescending(c, s[1..]);
      var r := Insert(c, s);
      assert r == [s[0]] + t;
      forall i, j | 0 <= i < j < |r| ensures Arity(r[i]) >= Arity(r[j]) {
        if i == 0 {
          assert r[j] == t[j - 1];
          assert r[j] in t;
          if r[j] != c {
            assert r[j] in s;
            DescendingHead(s, r[j]);
          }
        } else {
          assert r[i] == t[i - 1] && r[j] == t[j - 1];
        }
      }
    }
  }

  lemma TailKeeps(s: seq<Ctor>)
    requires |s| > 0
    ensures StableOn(s) ==> StableOn(s[1..])
    ensures Descending(s) ==> Descending(s[1..])
  {
    if StableOn(s) {
      forall i, j | 0 <= i < j < |s[1..]| && Arity(s[1..][i]) == Arity(s[1..][j])
        ensures s[1..][i].index < s[1..][j].index
      {
        assert s[1..][i] == s[i + 1] && s[1..][j] == s[j + 1];
      }
    }
    if Descending(s) {
      forall i, j | 0 <= i < j < |s[1..]| ensures Arity(s[1..][i]) >= Arity(s[1..][j]) {
        assert s[1..][i] == s[i + 1] && s[1..][j] == s[j + 1];
      }
    }
  }

  lemma {:induction false} InsertStable(c: Ctor, s: seq<Ctor>)
    requires StableOn(s)
    requires Descending(s)
    requires forall x :: x in s ==> c.index < x.index
    ensures StableOn(Insert(c, s))
    decreases |s|
  {
    if s == [] {
    } else if Arity(s[0]) <= Arity(c) {
      PrependStable(c, s);
    } else {
      TailKeeps(s);
      assert forall x :: x in s[1..] ==> x in s;
      InsertStable(c, s[1..]);
      HeadStable(c, s);
    }
  }

  lemma PrependStable(c: Ctor, s: seq<Ctor>)
    requires StableOn(s)
    requires forall x :: x in s ==> c.index < x.index
    ensures StableOn([c] + s)
  {
    var r := [c] + s;
    forall i, j | 0 <= i < j < |r| && Arity(r[i]) == Arity(r[j]) ensures r[i].index < r[j].index {
      if i == 0 {
        assert r[j] == s[j - 1] && r[j] in s;
      } else {
        assert r[i] == s[i - 1] && r[j] == s[j - 1];
      }
    }
  }

  /** The step case of `InsertStable`: the head stays in front of the stable insertion into the tail. */
  lemma HeadStable(c: Ctor, s: seq<Ctor>)
    requires |s| > 0 && Arity(s[0]) > Arity(c)
    requires StableOn(s)
    requires StableOn(Insert(c, s[1..]))
    ensures StableOn(Insert(c, s))
  {
    var t := Insert(c, s[1..]);
    var r := Insert(c, s);
    assert r == [s[0]] + t;
    forall i, j | 0 <= i < j < |r| && Arity(r[i]) == Arity(r[j]) ensures r[i].index < r[j].index {
      if i == 0 {
        assert r[j] == t[j - 1];
        assert r[j] in t;
        // `c` is strictly lighter than the head, so the partner of the head comes from the tail
        assert r[j] != c;
        var k :| 0 <= k < |s[1..]| && s[1..][k] == r[j];
        assert s[k + 1] == r[j];
      } else {
        assert r[i] == t[i - 1] && r[j] == t[j - 1];
      }
    }
  }

  lemma {:induction false} SortDescendingStable(s: seq<Ctor>)
    requires IncreasingIndex(s)
    ensures Descending(SortByArity(s))
    ensures StableOn(SortByArity(s))
    decreases |s|
  {
    if s != [] {
      var rest := s[1..];
      SortDescendingStable(rest);
      var sorted := SortByArity(rest);
      forall x | x in sorted ensures s[0].index < x.index {
        var k :| 0 <= k < |rest| && rest[k] == x;
        assert s[k + 1] == x;
      }
      InsertDescending(s[0], sorted);
      InsertStable(s[0], sorted);
    }
  }

  /**
   The order of trial is a rearrangement of the type's constructors, by
   non-increasing arity, ties in reflection order.
   */
  lemma OrderedSpec(ctors: seq<seq<TypeId>>)
    ensures multiset(Ordered(ctors)) == multiset(Tagged(ctors))
    ensures Descending(Ordered(ctors))
    ensures StableOn(Ordered(ctors))
    ensures forall c :: c in Ordered(ctors) <==> c.index < |ctors| && ctors[c.index] == c.params
  {
    var tg := Tagged(ctors);
    SortDescendingStable(tg);
    forall c ensures c in Ordered(ctors) <==> c.index < |ctors| && ctors[c.index] == c.params {
      if c.index < |ctors| && ctors[c.index] == c.params {
        assert tg[c.index] == c;
      }
    }
  }
}

=== FILE: engine.dfy ===
/**
 The recursive instantiation engine: `Create(Type)` and the helpers it calls
 (`CreateWithConstructor`, `FillFields`, `FillProperties`, `CastList`).

 Every operation threads the engine `State` (recursion guard and generator
 call count) and returns the state it leaves behind also when it raises: the
 source has no `finally`, so an exception leaves whatever was pushed on the
 guard.

 Termination: every nested `Create` runs while the current type is pushed,
 and no operation leaves the guard lower than it found it (the `Extends`
 postconditions), so `Budget(|stack|)` never grows along a call chain and
 drops by one at every push.
 */
module Engine {
  import opened Types
  import opened CtorOrder

  /** One constructor attempt: the constructor, the arguments created for it, and whether `Invoke` returned. */
  datatype Attempt = Attempt(ctor: Ctor, args: seq<Value>, succeeded: bool)

  /** Constructor selection: the attempts in the order made, and the object built (None: `null`). */
  datatype Selection = Selection(tried: seq<Attempt>, chosen: Option<Object>)

  /** No type falls through all three paths of `Create`. */
  ghost predicate NoFallThrough(env: Env) {
    forall t :: !Unhandled(env, t)
  }

  /** `Stack.Pop()`: removes the top entry, whichever type it is. */
  function Pop(st: State): (r: State)
    requires |st.stack| > 0
    ensures r.stack + [st.stack[|st.stack| - 1]] == st.stack && r.calls == st.calls
  {
    st.(stack := st.stack[..|st.stack| - 1])
  }

  /** `Stack.Push(t)`: `t` goes on top, and `Pop` undoes it. */
  function Push(st: State, t: TypeId): (r: State)
    ensures |r.stack| == |st.stack| + 1 && r.stack[|st.stack|] == t
    ensures Pop(r) == st
  {
    st.(stack := st.stack + [t])
  }

  /**
   The attempts of `sel` are the constructors `cs` in order, each with
   arguments fitting its parameter types (within `n` levels), each but the last
   failed, and the object is built by the last attempt exactly when it
   succeeded; when no object is built every constructor was tried.
   */
  ghost predicate Selected(env: Env, t: TypeId, cs: seq<Ctor>, sel: Selection, n: nat) {
    && |sel.tried| <= |cs|
    && (forall i :: 0 <= i < |sel.tried| ==>
          && sel.tried[i].ctor == cs[i]
          && AllFit(env, cs[i].params, sel.tried[i].args, n)
          && sel.tried[i].succeeded == env.invoke(t, cs[i], sel.tried[i].args))
    && (forall i :: 0 <= i < |sel.tried| - 1 ==> !sel.tried[i].succeeded)
    && (sel.chosen.Some? <==> |sel.tried| > 0 && sel.tried[|sel.tried| - 1].succeeded)
    && (sel.chosen.None? ==> |sel.tried| == |cs|)
    && (sel.chosen.Some? ==>
          var last := sel.tried[|sel.tried| - 1];
          sel.chosen.value == Object(t, last.ctor, last.args, map[], map[]))
  }

  /**
   `after` is `before` with the fields from index `from` on assigned, each to a
   value fitting the field's type within `n` levels that the field's `SetValue`
   accepted; nothing else changed.
   */
  ghost predicate FieldsFilled(env: Env, before: Object, after: Object, from: nat, n: nat) {
    var fs := env.describe(before.ty).fields;
    && after == before.(fields := after.fields)
    && (forall k :: k in after.fields <==> k in before.fields || from <= k < |fs|)
    && (forall k :: from <= k < |fs| ==>
          && k in after.fields && Fits(env, fs[k], after.fields[k]) && Shallow(after.fields[k], n)
          && env.setField(before.ty, k, after.fields[k]))
    && (forall k :: k in before.fields && !(from <= k < |fs|) ==> after.fields[k] == before.fields[k])
  }

  /**
   `after` is `before` with the writable properties from index `from` on
   assigned, each to a value fitting the property's type within `n` levels that
   the property's `SetValue` accepted; read-only properties and everything else
   are untouched.
   */
  ghost predicate PropsFilled(env: Env, before: Object, after: Object, from: nat, n: nat) {
    var ps := env.describe(before.ty).props;
    && after == before.(props := after.props)
    && (forall k :: k in after.props <==> k in before.props || (from <= k < |ps| && ps[k].canWrite))
    && (forall k :: from <= k < |ps| && ps[k].canWrite ==>
          && k in after.props && Fits(env, ps[k].ty, after.props[k]) && Shallow(after.props[k], n)
          && env.setProp(before.ty, k, after.props[k]))
    && (forall k :: k in before.props && !(from <= k < |ps| && ps[k].canWrite) ==> after.props[k] == before.props[k])
  }

  /**
   `Create(type)`. The guard refuses a sixth nested call; otherwise the type is
   pushed and handled by the first path that applies: its registered generator,
   the list generator for a generic type, or construction and member filling
   for a class. A type no path handles yields `null` and stays on the guard.
   */
  function Create(env: Env, st: State, t: TypeId): (r: Run<Value>)
    decreases Budget(|st.stack|), 1, 0
    ensures Extends(st, r.st)
    ensures |r.st.stack| <= Limit || r.st.stack == st.stack
    ensures r.res.Ok? ==> Fits(env, t, r.res.value) && Shallow(r.res.value, Budget(|st.stack|))
    ensures NoFallThrough(env) && r.res.Ok? ==> r.st.stack == st.stack
    ensures r.res == Err(CircleDependency) ==> |r.st.stack| >= Limit
  {
    if |st.stack| >= Limit then
      Run(Err(CircleDependency), st)
    else
      if HasGenerator(env, t) then
        // popped before the generator runs
        var after := st.(calls := st.calls + 1);
        match env.generate(env.registry[t].value, st.calls)
        case Some(d) => Run(Ok(Prim(d)), after)
        case None => Run(Err(GeneratorFailed), after)
      else if IsGeneric(env, t) then
        // popped before the list generator runs
        var elem := env.describe(t).genericArgs[0];
        var after := st.(calls := st.calls + 1);
        match env.listGenerate(elem, st.calls)
        case None => Run(Err(GeneratorFailed), after)
        case Some(raw) =>
          match CastList(env, elem, raw)
          case Ok(items) => Run(Ok(ListOf(elem, items)), after)
          case Err(e) => Run(Err(e), after)
      else if IsClass(env, t) then
        ClassPath(env, st, t)
      else
        Run(Ok(Null), Push(st, t))
  }

  /**
   The class branch of `Create`, entered with the guard as `Create` found it:
   pushes `t`, builds an object with the first constructor that succeeds, fills
   its fields and then its writable properties, and pops the top of the guard.
   A failed construction hands `null` to the field fill, which raises.
   */
  function ClassPath(env: Env, st: State, t: TypeId): (r: Run<Value>)
    requires |st.stack| < Limit
    requires !HasGenerator(env, t) && !IsGeneric(env, t) && IsClass(env, t)
    decreases Budget(|st.stack|), 0, 2
    ensures Extends(st, r.st)
    ensures |r.st.stack| <= Limit
    ensures r.res.Ok? ==> Fits(env, t, r.res.value) && Shallow(r.res.value, Budget(|st.stack|))
    ensures NoFallThrough(env) && r.res.Ok? ==> r.st.stack == st.stack
    ensures r.res == Err(CircleDependency) ==> |r.st.stack| >= Limit
  {
    var built := CreateWithConstructor(env, Push(st, t), t);
    if built.res.Err? then
      Run(Err(built.res.error), built.st)
    else
      Populate(env, st, t, built.st, built.res.value.chosen)
  }

  /**
   The rest of the class branch once constructor selection returned (with `t`
   still pushed below whatever nested calls left): `FillFields`, then
   `FillProperties`, then the pop.
   */
  function Populate(env: Env, st: State, t: TypeId, mid: State, chosen: Option<Object>): (r: Run<Value>)
    requires |st.stack| < Limit
    requires !HasGenerator(env, t) && !IsGeneric(env, t) && IsClass(env, t)
    requires Extends(Push(st, t), mid) && |mid.stack| <= Limit
    requires NoFallThrough(env) ==> mid.stack == st.stack + [t]
    requires chosen.Some? ==>
      && chosen.value.ty == t && IsCtorOf(env, t, chosen.value.ctor)
      && AllFit(env, chosen.value.ctor.params, chosen.value.args, Budget(|st.stack| + 1))
      && chosen.value.fields == map[] && chosen.value.props == map[]
    decreases Budget(|st.stack|), 0, 1
    ensures Extends(st, r.st)
    ensures |r.st.stack| <= Limit
    ensures r.res.Ok? ==> Fits(env, t, r.res.value) && Shallow(r.res.value, Budget(|st.stack|))
    ensures NoFallThrough(env) && r.res.Ok? ==> r.st.stack == st.stack
    ensures r.res == Err(CircleDependency) ==> |r.st.stack| >= Limit
    ensures chosen.None? ==> r == Run(Err(NullReference), mid)
  {
    var filled := FillFields(env, mid, chosen);
    if filled.res.Err? then
      Run(Err(filled.res.error), filled.st)
    else
      Finish(env, st, t, mid, chosen.value, filled.st, filled.res.value)
  }

  /** After `FillFields` returned `o1`: `FillProperties`, then the pop. */
  function Finish(env: Env, st: State, t: TypeId, mid: State, o0: Object, filled: State, o1: Object): (r: Run<Value>)
    requires |st.stack| < Limit
    requires !HasGenerator(env, t) && !IsGeneric(env, t) && IsClass(env, t)
    requires Extends(Push(st, t), mid) && |mid.stack| <= Limit
    requires NoFallThrough(env) ==> mid.stack == st.stack + [t]
    requires o0.ty == t && IsCtorOf(env, t, o0.ctor) && o0.fields == map[] && o0.props == map[]
    requires AllFit(env, o0.ctor.params, o0.args, Budget(|st.stack| + 1))
    requires Extends(mid, filled) && (|filled.stack| <= Limit || filled.stack == mid.stack)
    requires NoFallThrough(env) ==> filled.stack == mid.stack
    requires FieldsFilled(env, o0, o1, 0, Budget(|mid.stack|))
    decreases Budget(|st.stack|), 0, 0
    ensures Extends(st, r.st)
    ensures |r.st.stack| <= Limit
    ensures r.res.Ok? ==> Fits(env, t, r.res.value) && Shallow(r.res.value, Budget(|st.stack|))
    ensures NoFallThrough(env) && r.res.Ok? ==> r.st.stack == st.stack
    ensures r.res == Err(CircleDependency) ==> |r.st.stack| >= Limit
  {
    var done := FillProperties(env, filled, Some(o1));
    if done.res.Err? then
      Run(Err(done.res.error), done.st)
    else
      ClassResult(env, st, t, mid, filled, o0, o1, done.res.value);
      PopFrame(env, st, t, mid, filled, done.st);
      Run(Ok(Ref(done.res.value)), Pop(done.st))
  }

  /**
   `CreateWithConstructor`: tries the constructors of `t` by descending
   parameter count and returns the first object one of them builds.
   */
  function CreateWithConstructor(env: Env, st: State, t: TypeId): (r: Run<Selection>)
    decreases Budget(|st.stack|), 3, 0
    ensures Extends(st, r.st)
    ensures |r.st.stack| <= Limit || r.st.stack == st.stack
    ensures NoFallThrough(env) && r.res.Ok? ==> r.st.stack == st.stack
    ensures r.res == Err(CircleDependency) ==> |r.st.stack| >= Limit
    ensures r.res.Ok? ==> Selected(env, t, Ordered(env.describe(t).ctors), r.res.value, Budget(|st.stack|))
    ensures r.res.Ok? && r.res.value.chosen.Some? ==>
      var o := r.res.value.chosen.value;
      && o.ty == t && IsCtorOf(env, t, o.ctor)
      && AllFit(env, o.ctor.params, o.args, Budget(|st.stack|))
      && o.fields == map[] && o.props == map[]
  {
    var cs := Ordered(env.describe(t).ctors);
    var r := TryCtors(env, st, t, cs);
    if r.res.Ok? && r.res.value.chosen.Some? then
      OrderedSpec(env.describe(t).ctors);
      assert r.res.value.tried[|r.res.value.tried| - 1].ctor in cs;
      r
    else
      r
  }

  /**
   The loop over constructors: creates the arguments of `cs[0]` one by one,
   then invokes it; a failing invocation moves on to the next constructor,
   while an exception raised while creating the arguments escapes.
   */
  function TryCtors(env: Env, st: State, t: TypeId, cs: seq<Ctor>): (r: Run<Selection>)
    decreases Budget(|st.stack|), 2, |cs|
    ensures Extends(st, r.st)
    ensures |r.st.stack| <= Limit || r.st.stack == st.stack
    ensures NoFallThrough(env) && r.res.Ok? ==> r.st.stack == st.stack
    ensures r.res == Err(CircleDependency) ==> |r.st.stack| >= Limit
    ensures r.res.Ok? ==> Selected(env, t, cs, r.res.value, Budget(|st.stack|))
  {
    if cs == [] then
      Run(Ok(Selection([], None)), st)
    else
      var c := cs[0];
      var a := CreateAll(env, st, c.params);
      if a.res.Err? then
        Run(Err(a.res.error), a.st)
      else
        var attempt := Attempt(c, a.res.value, env.invoke(t, c, a.res.value));
        if attempt.succeeded then
          Run(Ok(Selection([attempt], Some(Object(t, c, a.res.value, map[], map[])))), a.st)
        else
          var rest := TryCtors(env, a.st, t, cs[1..]);
          if rest.res.Err? then
            rest
          else
            var sel := Selection([attempt] + rest.res.value.tried, rest.res.value.chosen);
            SelectedStep(env, t, cs, attempt, rest.res.value, sel, Budget(|a.st.stack|), Budget(|st.stack|));
            Run(Ok(sel), rest.st)
  }

  /** One `Create` per type of `ts`, in order; the first exception escapes. */
  function CreateAll(env: Env, st: State, ts: seq<TypeId>): (r: Run<seq<Value>>)
    decreases Budget(|st.stack|), 1, |ts|
    ensures Extends(st, r.st)
    ensures |r.st.stack| <= Limit || r.st.stack == st.stack
    ensures NoFallThrough(env) && r.res.Ok? ==> r.st.stack == st.stack
    ensures r.res == Err(CircleDependency) ==> |r.st.stack| >= Limit
    ensures r.res.Ok? ==> AllFit(env, ts, r.res.value, Budget(|st.stack|))
  {
    if ts == [] then
      Run(Ok([]), st)
    else
      var a := Create(env, st, ts[0]);
      if a.res.Err? then
        Run(Err(a.res.error), a.st)
      else
        var rest := CreateAll(env, a.st, ts[1..]);
        if rest.res.Err? then
          rest
        else
          AllFitMono(env, ts[1..], rest.res.value, Budget(|a.st.stack|), Budget(|st.stack|));
          Run(Ok([a.res.value] + rest.res.value), rest.st)
  }

  /**
   `FillFields`: every public field, in order, gets a fresh `Create` of its
   type, assigned by `SetValue`; `null` raises, and so does a refused assignment.
   */
  function FillFields(env: Env, st: State, obj: Option<Object>): (r: Run<Object>)
    decreases Budget(|st.stack|), 2, 0
    ensures Extends(st, r.st)
    ensures |r.st.stack| <= Limit || r.st.stack == st.stack
    ensures NoFallThrough(env) && r.res.Ok? ==> r.st.stack == st.stack
    ensures r.res == Err(CircleDependency) ==> |r.st.stack| >= Limit
    ensures obj.None? ==> r == Run(Err(NullReference), st)
    ensures obj.Some? && r.res.Ok? ==> FieldsFilled(env, obj.value, r.res.value, 0, Budget(|st.stack|))
  {
    match obj
    case None => Run(Err(NullReference), st)
    case Some(o) => FillFieldsFrom(env, st, o, 0)
  }

  function FillFieldsFrom(env: Env, st: State, o: Object, i: nat): (r: Run<Object>)
    decreases Budget(|st.stack|), 1, |env.describe(o.ty).fields| - i
    ensures Extends(st, r.st)
    ensures |r.st.stack| <= Limit || r.st.stack == st.stack
    ensures NoFallThrough(env) && r.res.Ok? ==> r.st.stack == st.stack
    ensures r.res == Err(CircleDependency) ==> |r.st.stack| >= Limit
    ensures r.res.Ok? ==> FieldsFilled(env, o, r.res.value, i, Budget(|st.stack|))
  {
    var fs := env.describe(o.ty).fields;
    if i >= |fs| then
      Run(Ok(o), st)
    else
      var v := Create(env, st, fs[i]);
      if v.res.Err? then
        Run(Err(v.res.error), v.st)
      else if !env.setField(o.ty, i, v.res.value) then
        Run(Err(SetValueFailed), v.st)
      else
        var next := o.(fields := o.fields[i := v.res.value]);
        var rest := FillFieldsFrom(env, v.st, next, i + 1);
        if rest.res.Err? then
          rest
        else
          FieldsFilledStep(env, o, next, rest.res.value, i, Budget(|v.st.stack|), Budget(|st.stack|));
          rest
  }

  /**
   `FillProperties`: every writable property, in order, gets a fresh `Create`
   of its type, assigned by `SetValue`; `null` raises, and so does a refused
   assignment.
   */
  function FillProperties(env: Env, st: State, obj: Option<Object>): (r: Run<Object>)
    decreases Budget(|st.stack|), 2, 0
    ensures Extends(st, r.st)
    ensures |r.st.stack| <= Limit || r.st.stack == st.stack
    ensures NoFallThrough(env) && r.res.Ok? ==> r.st.stack == st.stack
    ensures r.res == Err(CircleDependency) ==> |r.st.stack| >= Limit
    ensures obj.None? ==> r == Run(Err(NullReference), st)
    ensures obj.Some? && r.res.Ok? ==> PropsFilled(env, obj.value, r.res.value, 0, Budget(|st.stack|))
  {
    match obj
    case None => Run(Err(NullReference), st)
    case Some(o) => FillPropertiesFrom(env, st, o, 0)
  }

  function FillPropertiesFrom(env: Env, st: State, o: Object, i: nat): (r: Run<Object>)
    decreases Budget(|st.stack|), 1, |env.describe(o.ty).props| - i
    ensures Extends(st, r.st)
    ensures |r.st.stack| <= Limit || r.st.stack == st.stack
    ensures NoFallThrough(env) && r.res.Ok? ==> r.st.stack == st.stack
    ensures r.res == Err(CircleDependency) ==> |r.st.stack| >= Limit
    ensures r.res.Ok? ==> PropsFilled(env, o, r.res.value, i, Budget(|st.stack|))
  {
    var ps := env.describe(o.ty).props;
    if i >= |ps| then
      Run(Ok(o), st)
    else if !ps[i].canWrite then
      var rest := FillPropertiesFrom(env, st, o, i + 1);
      if rest.res.Err? then
        rest
      else
        PropsSkipStep(env, o, rest.res.value, i, Budget(|st.stack|));
        rest
    else
      var v := Create(env, st, ps[i].ty);
      if v.res.Err? then
        Run(Err(v.res.error), v.st)
      else if !env.setProp(o.ty, i, v.res.value) then
        Run(Err(SetValueFailed), v.st)
      else
        var next := o.(props := o.props[i := v.res.value]);
        var rest := FillPropertiesFrom(env, v.st, next, i + 1);
        if rest.res.Err? then
          rest
        else
          PropsFilledStep(env, o, next, rest.res.value, i, Budget(|v.st.stack|), Budget(|st.stack|));
          rest
  }

  /**
   `CastList`: converts each generated element to the element type, in order;
   the first failed conversion raises, since nothing guards it.
   */
  function CastList(env: Env, elem: TypeId, items: seq<Datum>): (r: Result<seq<Datum>>)
    ensures r.Ok? ==> |r.value| == |items| && forall i :: 0 <= i < |items| ==> env.convert(items[i], elem) == Some(r.value[i])
    ensures r.Err? <==> exists i :: 0 <= i < |items| && env.convert(items[i], elem).None?
    ensures r.Err? ==> r.error == ConversionFailed
  {
    if items == [] then
      Ok([])
    else
      match env.convert(items[0], elem)
      case None => Err(ConversionFailed)
      case Some(d) =>
        match CastList(env, elem, items[1..])
        case Err(e) =>
          assert forall i :: 0 <= i < |items[1..]| ==> items[1..][i] == items[i + 1];
          Err(e)
        case Ok(rest) =>
          assert forall i :: 0 < i < |items| ==> items[i] == items[1..][i - 1];
          Ok([d] + rest)
  }

  // ----- proof steps used by the definitions above -----

  lemma SelectedStep(env: Env, t: TypeId, cs: seq<Ctor>, attempt: Attempt, rest: Selection, sel: Selection, n: nat, m: nat)
    requires |cs| > 0 && attempt.ctor == cs[0] && !attempt.succeeded
    requires attempt.succeeded == env.invoke(t, cs[0], attempt.args)
    requires AllFit(env, cs[0].params, attempt.args, m)
    requires Selected(env, t, cs[1..], rest, n) && n <= m
    requires sel == Selection([attempt] + rest.tried, rest.chosen)
    ensures Selected(env, t, cs, sel, m)
  {
    forall i | 0 <= i < |sel.tried| ensures AllFit(env, cs[i].params, sel.tried[i].args, m) {
      if i > 0 {
        assert sel.tried[i] == rest.tried[i - 1] && cs[i] == cs[1..][i - 1];
        AllFitMono(env, cs[i].params, sel.tried[i].args, n, m);
      }
    }
    forall i | 0 < i < |sel.tried| ensures sel.tried[i].ctor == cs[i] && sel.tried[i].succeeded == env.invoke(t, cs[i], sel.tried[i].args) {
      assert sel.tried[i] == rest.tried[i - 1] && cs[i] == cs[1..][i - 1];
    }
    if |rest.tried| > 0 {
      assert sel.tried[|sel.tried| - 1] == rest.tried[|rest.tried| - 1];
    }
    forall i | 0 <= i < |sel.tried| - 1 ensures !sel.tried[i].succeeded {
      if i > 0 {
        assert sel.tried[i] == rest.tried[i - 1];
      }
    }
  }

  lemma FieldsFilledStep(env: Env, o: Object, next: Object, after: Object, i: nat, n: nat, m: nat)
    requires i < |env.describe(o.ty).fields|
    requires i in next.fields
    requires next == o.(fields := o.fields[i := next.fields[i]])
    requires Fits(env, env.describe(o.ty).fields[i], next.fields[i]) && Shallow(next.fields[i], m)
    requires env.setField(o.ty, i, next.fields[i])
    requires FieldsFilled(env, next, after, i + 1, n) && n <= m
    ensures FieldsFilled(env, o, after, i, m)
  {
    var fs := env.describe(o.ty).fields;
    assert after.fields[i] == next.fields[i];
    forall k | i <= k < |fs|
      ensures k in after.fields && Fits(env, fs[k], after.fields[k]) && Shallow(after.fields[k], m)
      ensures env.setField(o.ty, k, after.fields[k])
    {
      if k > i {
        ShallowMono(after.fields[k], n, m);
      }
    }
    forall k | k in o.fields && !(i <= k < |fs|) ensures after.fields[k] == o.fields[k] {
      assert next.fields[k] == o.fields[k];
    }
  }

  lemma PropsSkipStep(env: Env, o: Object, after: Object, i: nat, n: nat)
    requires i < |env.describe(o.ty).props| && !env.describe(o.ty).props[i].canWrite
    requires PropsFilled(env, o, after, i + 1, n)
    ensures PropsFilled(env, o, after, i, n)
  {
  }

  lemma PropsFilledStep(env: Env, o: Object, next: Object, after: Object, i: nat, n: nat, m: nat)
    requires i < |env.describe(o.ty).props| && env.describe(o.ty).props[i].canWrite
    requires i in next.props
    requires next == o.(props := o.props[i := next.props[i]])
    requires Fits(env, env.describe(o.ty).props[i].ty, next.props[i]) && Shallow(next.props[i], m)
    requires env.setProp(o.ty, i, next.props[i])
    requires PropsFilled(env, next, after, i + 1, n) && n <= m
    ensures PropsFilled(env, o, after, i, m)
  {
    var ps := env.describe(o.ty).props;
    assert after.props[i] == next.props[i];
    forall k | i <= k < |ps| && ps[k].canWrite
      ensures k in after.props && Fits(env, ps[k].ty, after.props[k]) && Shallow(after.props[k], m)
      ensures env.setProp(o.ty, k, after.props[k])
    {
      if k > i {
        ShallowMono(after.props[k], n, m);
      }
    }
    forall k | k in o.props && !(i <= k < |ps| && ps[k].canWrite) ensures after.props[k] == o.props[k] {
      assert next.props[k] == o.props[k];
    }
  }

  /** The final pop of the class path: the guard ends at or above where `Create` found it. */
  lemma PopFrame(env: Env, st: State, t: TypeId, mid: State, filled: State, done: State)
    requires |st.stack| < Limit
    requires Extends(Push(st, t), mid) && |mid.stack| <= Limit
    requires NoFallThrough(env) ==> mid.stack == st.stack + [t]
    requires Extends(mid, filled) && (|filled.stack| <= Limit || filled.stack == mid.stack)
    requires NoFallThrough(env) ==> filled.stack == mid.stack
    requires Extends(filled, done) && (|done.stack| <= Limit || done.stack == filled.stack)
    requires NoFallThrough(env) ==> done.stack == filled.stack
    ensures |done.stack| > |st.stack|
    ensures Extends(st, Pop(done)) && |Pop(done).stack| <= Limit
    ensures NoFallThrough(env) ==> Pop(done).stack == st.stack
  {
    assert st.stack <= Push(st, t).stack <= done.stack;
    assert Pop(done).stack == done.stack[..|done.stack| - 1];
  }

  /** The object the class path returns fits `t` and is nested no deeper than the guard allows. */
  lemma ClassResult(env: Env, st: State, t: TypeId, built: State, filled: State, o0: Object, o1: Object, o2: Object)
    requires |st.stack| < Limit
    requires !HasGenerator(env, t) && !IsGeneric(env, t) && IsClass(env, t)
    requires |built.stack| >= |st.stack| + 1 && |filled.stack| >= |built.stack|
    requires o0.ty == t && IsCtorOf(env, t, o0.ctor) && o0.fields == map[] && o0.props == map[]
    requires AllFit(env, o0.ctor.params, o0.args, Budget(|st.stack| + 1))
    requires FieldsFilled(env, o0, o1, 0, Budget(|built.stack|))
    requires PropsFilled(env, o1, o2, 0, Budget(|filled.stack|))
    ensures Fits(env, t, Ref(o2)) && Shallow(Ref(o2), Budget(|st.stack|))
  {
    ClassFits(env, t, o0, o1, o2, Budget(|st.stack| + 1), Budget(|built.stack|), Budget(|filled.stack|));
    ClassShallow(env, o0, o1, o2, Budget(|st.stack| + 1), Budget(|built.stack|), Budget(|filled.stack|));
  }

  lemma ClassFits(env: Env, t: TypeId, o0: Object, o1: Object, o2: Object, n: nat, nf: nat, np: nat)
    requires !HasGenerator(env, t) && !IsGeneric(env, t) && IsClass(env, t)
    requires o0.ty == t && IsCtorOf(env, t, o0.ctor) && o0.fields == map[] && o0.props == map[]
    requires AllFit(env, o0.ctor.params, o0.args, n)
    requires FieldsFilled(env, o0, o1, 0, nf)
    requires PropsFilled(env, o1, o2, 0, np)
    ensures Fits(env, t, Ref(o2))
  {
  }

  lemma ClassShallow(env: Env, o0: Object, o1: Object, o2: Object, n: nat, nf: nat, np: nat)
    requires AllFit(env, o0.ctor.params, o0.args, n)
    requires o0.fields == map[] && o0.props == map[]
    requires FieldsFilled(env, o0, o1, 0, nf) && nf <= n
    requires PropsFilled(env, o1, o2, 0, np) && np <= n
    ensures Shallow(Ref(o2), n + 1)
  {
    forall i | 0 <= i < |o2.args| ensures Shallow(o2.args[i], n) {
    }
    MapShallowMono(o2.fields, nf, n);
    MapShallowMono(o2.props, np, n);
  }
}

=== FILE: engine_props.dfy ===
/**
 Properties of the instantiation engine: what each branch of `Create` does,
 how constructors are selected, and how members are filled.
 */
module EngineProps {
  import opened Types
  import opened CtorOrder
  import opened Engine

  // ----- the depth guard and the three-way dispatch -----

  /** With five or more types on the guard, `Create` raises the circle error and changes nothing. */
  lemma CircleGuard(env: Env, st: State, t: TypeId)
    requires |st.stack| >= Limit
    ensures Create(env, st, t) == Run(Err(CircleDependency), st)
  {
  }

  /**
   A type with a non-null registered generator yields exactly that generator's
   next output, or the generator's exception: one generator call either way,
   and the guard as it was, since the pop comes first.
   */
  lemma RegisteredGenerator(env: Env, st: State, t: TypeId)
    requires |st.stack| < Limit
    requires HasGenerator(env, t)
    ensures var out := env.generate(env.registry[t].value, st.calls);
            Create(env, st, t) ==
              Run(if out.Some? then Ok(Prim(out.value)) else Err(GeneratorFailed), State(st.stack, st.calls + 1))
  {
  }

  /**
   After a circle error, the guard stays full, so every later `Create` on the
   same engine raises the circle error too and changes nothing.
   */
  lemma CircleErrorPersists(env: Env, st: State, t: TypeId, u: TypeId)
    requires Create(env, st, t).res == Err(CircleDependency)
    ensures var after := Create(env, st, t).st;
            Create(env, after, u) == Run(Err(CircleDependency), after)
  {
  }

  /** A null dictionary entry does not count as a generator: dispatch falls through to the later paths. */
  lemma NullEntryFallsThrough(env: Env, st: State, t: TypeId)
    requires |st.stack| < Limit
    requires t in env.registry && env.registry[t].None?
    requires !IsGeneric(env, t) && !IsClass(env, t)
    ensures Create(env, st, t) == Run(Ok(Null), Push(st, t))
  {
  }

  /**
   A generic type without a generator yields a list of its first type argument
   holding the list generator's output converted element by element, same count
   and order; the guard is restored and one generator call is made. If the list
   generator throws, or any element does not convert, that exception escapes.
   */
  lemma GenericList(env: Env, st: State, t: TypeId)
    requires |st.stack| < Limit
    requires !HasGenerator(env, t) && IsGeneric(env, t)
    ensures var e := env.describe(t).genericArgs[0];
            var out := env.listGenerate(e, st.calls);
            var r := Create(env, st, t);
            && r.st == State(st.stack, st.calls + 1)
            && (out.None? ==> r.res == Err(GeneratorFailed))
            && (out.Some? ==>
                  var raw := out.value;
                  && (r.res.Ok? <==> forall i :: 0 <= i < |raw| ==> env.convert(raw[i], e).Some?)
                  && (r.res.Ok? ==>
                        && r.res.value.ListOf? && r.res.value.elem == e
                        && |r.res.value.items| == |raw|
                        && forall i :: 0 <= i < |raw| ==> env.convert(raw[i], e) == Some(r.res.value.items[i]))
                  && (r.res.Err? ==> r.res.error == ConversionFailed))
  {
  }

  /**
   A type that is neither registered, generic nor a class yields `null`, and
   its guard entry is never popped: the guard ends one higher, `t` on top.
   */
  lemma FallThroughLeaks(env: Env, st: State, t: TypeId)
    requires |st.stack| < Limit
    requires Unhandled(env, t)
    ensures Create(env, st, t) == Run(Ok(Null), Push(st, t))
  {
  }

  /**
   On the class path the constructor selection starts with `t` pushed, and a
   successful run returns the filled object after a final pop that removes the
   top of the guard. So if construction and both fills
   leave the guard as they found it, the guard ends as `Create` found it; if
   they leave extra entries, `t` stays behind and only the topmost is removed.
   */
  lemma ClassPathPops(env: Env, st: State, t: TypeId)
    requires |st.stack| < Limit
    requires !HasGenerator(env, t) && !IsGeneric(env, t) && IsClass(env, t)
    ensures var built := CreateWithConstructor(env, Push(st, t), t);
            built.res.Ok? ==>
            var filled := FillFields(env, built.st, built.res.value.chosen);
            filled.res.Ok? ==>
            var done := FillProperties(env, filled.st, Some(filled.res.value));
            done.res.Ok? ==>
              && |done.st.stack| > |st.stack|
              && Create(env, st, t) == Run(Ok(Ref(done.res.value)), Pop(done.st))
              && Create(env, st, t).st.stack + [done.st.stack[|done.st.stack| - 1]] == done.st.stack
              && (done.st.stack == Push(st, t).stack ==> Create(env, st, t).st.stack == st.stack)
              && (|done.st.stack| > |st.stack| + 1 ==> Create(env, st, t).st.stack[|st.stack|] == t)
  {
    var built := CreateWithConstructor(env, Push(st, t), t);
    if built.res.Ok? {
      var filled := FillFields(env, built.st, built.res.value.chosen);
      if filled.res.Ok? {
        var done := FillProperties(env, filled.st, Some(filled.res.value));
        if done.res.Ok? {
          ClassPathResult(env, st, t);
          assert Push(st, t).stack <= done.st.stack;
          assert done.st.stack[|st.stack|] == Push(st, t).stack[|st.stack|] == t;
        }
      }
    }
  }

  /** The successful class path returns the filled object, in the state after the final pop. */
  lemma ClassPathResult(env: Env, st: State, t: TypeId)
    requires |st.stack| < Limit
    requires !HasGenerator(env, t) && !IsGeneric(env, t) && IsClass(env, t)
    ensures var built := CreateWithConstructor(env, Push(st, t), t);
            built.res.Ok? ==>
            var filled := FillFields(env, built.st, built.res.value.chosen);
            filled.res.Ok? ==>
            var done := FillProperties(env, filled.st, Some(filled.res.value));
            done.res.Ok? ==>
              |done.st.stack| > 0 && Create(env, st, t) == Run(Ok(Ref(done.res.value)), Pop(done.st))
  {
    var built := CreateWithConstructor(env, Push(st, t), t);
    if built.res.Ok? {
      var filled := FillFields(env, built.st, built.res.value.chosen);
      if filled.res.Ok? {
        var done := FillProperties(env, filled.st, Some(filled.res.value));
        if done.res.Ok? {
          assert Create(env, st, t) == ClassPath(env, st, t);
          assert ClassPath(env, st, t) == Populate(env, st, t, built.st, built.res.value.chosen);
          var o0 := built.res.value.chosen.value;
          assert Populate(env, st, t, built.st, Some(o0)) == Finish(env, st, t, built.st, o0, filled.st, filled.res.value);
          assert Finish(env, st, t, built.st, o0, filled.st, filled.res.value) == Run(Ok(Ref(done.res.value)), Pop(done.st));
        }
      }
    }
  }

  /** An exception raised during constructor selection escapes `Create`, with the state it left: nothing pops. */
  lemma ConstructionErrorEscapes(env: Env, st: State, t: TypeId)
    requires |st.stack| < Limit
    requires !HasGenerator(env, t) && !IsGeneric(env, t) && IsClass(env, t)
    requires CreateWithConstructor(env, Push(st, t), t).res.Err?
    ensures var built := CreateWithConstructor(env, Push(st, t), t);
            Create(env, st, t) == Run(Err(built.res.error), built.st)
  {
    assert Create(env, st, t) == ClassPath(env, st, t);
  }

  /**
   An exception raised by `FillFields` (including the one for a `null` object)
   escapes `Create`, with the state it left: `FillProperties` does not run and
   nothing pops.
   */
  lemma FieldErrorEscapes(env: Env, st: State, t: TypeId)
    requires |st.stack| < Limit
    requires !HasGenerator(env, t) && !IsGeneric(env, t) && IsClass(env, t)
    requires CreateWithConstructor(env, Push(st, t), t).res.Ok?
    requires var built := CreateWithConstructor(env, Push(st, t), t);
             FillFields(env, built.st, built.res.value.chosen).res.Err?
    ensures var built := CreateWithConstructor(env, Push(st, t), t);
            var filled := FillFields(env, built.st, built.res.value.chosen);
            Create(env, st, t) == Run(Err(filled.res.error), filled.st)
  {
    var built := CreateWithConstructor(env, Push(st, t), t);
    assert Create(env, st, t) == ClassPath(env, st, t);
    assert ClassPath(env, st, t) == Populate(env, st, t, built.st, built.res.value.chosen);
  }

  /** An exception raised by `FillProperties` escapes `Create`, with the state it left: nothing pops. */
  lemma PropertyErrorEscapes(env: Env, st: State, t: TypeId)
    requires |st.stack| < Limit
    requires !HasGenerator(env, t) && !IsGeneric(env, t) && IsClass(env, t)
    ensures var built := CreateWithConstructor(env, Push(st, t), t);
            built.res.Ok? ==>
            var filled := FillFields(env, built.st, built.res.value.chosen);
            filled.res.Ok? ==>
            var done := FillProperties(env, filled.st, Some(filled.res.value));
            done.res.Err? ==> Create(env, st, t) == Run(Err(done.res.error), done.st)
  {
    var built := CreateWithConstructor(env, Push(st, t), t);
    if built.res.Ok? {
      var filled := FillFields(env, built.st, built.res.value.chosen);
      if filled.res.Ok? && FillProperties(env, filled.st, Some(filled.res.value)).res.Err? {
        var o0 := built.res.value.chosen.value;
        assert Create(env, st, t) == ClassPath(env, st, t);
        assert ClassPath(env, st, t) == Populate(env, st, t, built.st, built.res.value.chosen);
        assert Populate(env, st, t, built.st, Some(o0)) == Finish(env, st, t, built.st, o0, filled.st, filled.res.value);
      }
    }
  }

  /**
   When every constructor fails (or there is none), `FillFields` receives
   `null` and raises: `Create` does not return a silent `null` for a class.
   */
  lemma AllConstructorsFail(env: Env, st: State, t: TypeId)
    requires |st.stack| < Limit
    requires !HasGenerator(env, t) && !IsGeneric(env, t) && IsClass(env, t)
    requires var built := CreateWithConstructor(env, Push(st, t), t);
             built.res.Ok? && built.res.value.chosen.None?
    ensures var built := CreateWithConstructor(env, Push(st, t), t);
            && Create(env, st, t) == Run(Err(NullReference), built.st)
            && |built.res.value.tried| == |env.describe(t).ctors|
            && forall i :: 0 <= i < |built.res.value.tried| ==> !built.res.value.tried[i].succeeded
  {
    var built := CreateWithConstructor(env, Push(st, t), t);
    assert Create(env, st, t) == ClassPath(env, st, t);
    assert ClassPath(env, st, t) == Populate(env, st, t, built.st, None);
    assert FillFields(env, built.st, None) == Run(Err(NullReference), built.st);
    NothingChosen(env, t, built.res.value, Budget(|Push(st, t).stack|));
  }

  /** A selection that built nothing tried every constructor, and each attempt failed. */
  lemma NothingChosen(env: Env, t: TypeId, sel: Selection, n: nat)
    requires Selected(env, t, Ordered(env.describe(t).ctors), sel, n)
    requires sel.chosen.None?
    ensures |sel.tried| == |env.describe(t).ctors|
    ensures forall i :: 0 <= i < |sel.tried| ==> !sel.tried[i].succeeded
  {
    assert |Ordered(env.describe(t).ctors)| == |env.describe(t).ctors|;
    if |sel.tried| > 0 {
      assert !sel.tried[|sel.tried| - 1].succeeded;
    }
  }

  /** A class without public constructors cannot be created: the null object makes `FillFields` raise. */
  lemma NoConstructorIsError(env: Env, st: State, t: TypeId)
    requires |st.stack| < Limit
    requires !HasGenerator(env, t) && !IsGeneric(env, t) && IsClass(env, t)
    requires env.describe(t).ctors == []
    ensures Create(env, st, t) == Run(Err(NullReference), Push(st, t))
  {
    assert Ordered(env.describe(t).ctors) == [];
    assert CreateWithConstructor(env, Push(st, t), t) == Run(Ok(Selection([], None)), Push(st, t));
    AllConstructorsFail(env, st, t);
  }

  /**
   No finite value fits a class with a public field of its own type: a
   populated object of it would have to hold a smaller populated object of it
   in that field.
   */
  lemma {:induction false} NoFiniteSelf(env: Env, t: TypeId, k: nat, v: Value)
    requires !HasGenerator(env, t) && !IsGeneric(env, t) && IsClass(env, t)
    requires k < |env.describe(t).fields| && env.describe(t).fields[k] == t
    ensures !Fits(env, t, v)
    decreases v
  {
    if Fits(env, t, v) {
      assert k in v.obj.fields;
      NoFiniteSelf(env, t, k, v.obj.fields[k]);
    }
  }

  /**
   So such a class can never be created, in any environment and from any
   state: whatever its constructors and the other members do, `Create` raises.
   */
  lemma SelfFieldNeverCreated(env: Env, st: State, t: TypeId, k: nat)
    requires !HasGenerator(env, t) && !IsGeneric(env, t) && IsClass(env, t)
    requires k < |env.describe(t).fields| && env.describe(t).fields[k] == t
    ensures Create(env, st, t).res.Err?
  {
    var r := Create(env, st, t);
    if r.res.Ok? {
      NoFiniteSelf(env, t, k, r.res.value);
    }
  }

  // ----- constructor selection -----

  /**
   Constructors are tried in non-increasing parameter count (ties in
   reflection order), each at most once; a constructor is used only when it
   is the first whose invocation returned, and every constructor with more
   parameters was tried before it and failed.
   */
  lemma SelectionOrder(env: Env, st: State, t: TypeId)
    requires CreateWithConstructor(env, st, t).res.Ok?
    ensures var sel := CreateWithConstructor(env, st, t).res.value;
            && (forall i, j :: 0 <= i < j < |sel.tried| ==> Arity(sel.tried[i].ctor) >= Arity(sel.tried[j].ctor))
            && (forall i, j :: 0 <= i < j < |sel.tried| && Arity(sel.tried[i].ctor) == Arity(sel.tried[j].ctor) ==>
                  sel.tried[i].ctor.index < sel.tried[j].ctor.index)
            && (forall i, j :: 0 <= i < j < |sel.tried| ==> sel.tried[i].ctor != sel.tried[j].ctor)
            && (forall i :: 0 <= i < |sel.tried| ==> IsCtorOf(env, t, sel.tried[i].ctor))
            && (sel.chosen.Some? ==>
                  forall c :: IsCtorOf(env, t, c) && Arity(c) > Arity(sel.chosen.value.ctor) ==>
                    exists i :: 0 <= i < |sel.tried| - 1 && sel.tried[i].ctor == c && !sel.tried[i].succeeded)
  {
    var sel := CreateWithConstructor(env, st, t).res.value;
    TriedInOrder(env, t, sel, Budget(|st.stack|));
    if sel.chosen.Some? {
      HeavierTriedFirst(env, t, sel, Budget(|st.stack|));
    }
  }

  lemma TriedInOrder(env: Env, t: TypeId, sel: Selection, n: nat)
    requires Selected(env, t, Ordered(env.describe(t).ctors), sel, n)
    ensures forall i, j :: 0 <= i < j < |sel.tried| ==> Arity(sel.tried[i].ctor) >= Arity(sel.tried[j].ctor)
    ensures forall i, j :: 0 <= i < j < |sel.tried| && Arity(sel.tried[i].ctor) == Arity(sel.tried[j].ctor) ==>
              sel.tried[i].ctor.index < sel.tried[j].ctor.index
    ensures forall i, j :: 0 <= i < j < |sel.tried| ==> sel.tried[i].ctor != sel.tried[j].ctor
    ensures forall i :: 0 <= i < |sel.tried| ==> IsCtorOf(env, t, sel.tried[i].ctor)
  {
    var ctors := env.describe(t).ctors;
    var cs := Ordered(ctors);
    OrderedSpec(ctors);
    forall i, j | 0 <= i < j < |sel.tried| ensures sel.tried[i].ctor != sel.tried[j].ctor {
      OrderedDistinct(ctors, i, j);
    }
    forall i | 0 <= i < |sel.tried| ensures IsCtorOf(env, t, sel.tried[i].ctor) {
      assert cs[i] in cs;
    }
  }

  lemma HeavierTriedFirst(env: Env, t: TypeId, sel: Selection, n: nat)
    requires Selected(env, t, Ordered(env.describe(t).ctors), sel, n)
    requires sel.chosen.Some?
    ensures forall c :: IsCtorOf(env, t, c) && Arity(c) > Arity(sel.chosen.value.ctor) ==>
              exists i :: 0 <= i < |sel.tried| - 1 && sel.tried[i].ctor == c && !sel.tried[i].succeeded
  {
    var ctors := env.describe(t).ctors;
    var cs := Ordered(ctors);
    OrderedSpec(ctors);
    var last := |sel.tried| - 1;
    assert forall j :: last <= j < |cs| ==> Arity(cs[j]) <= Arity(cs[last]);
    forall c | IsCtorOf(env, t, c) && Arity(c) > Arity(sel.chosen.value.ctor)
      ensures exists i :: 0 <= i < |sel.tried| - 1 && sel.tried[i].ctor == c && !sel.tried[i].succeeded
    {
      assert c in cs;
      var k :| 0 <= k < |cs| && cs[k] == c;
      assert sel.tried[k].ctor == c && !sel.tried[k].succeeded;
    }
  }

  lemma OrderedDistinct(ctors: seq<seq<TypeId>>, i: nat, j: nat)
    requires i < j < |Ordered(ctors)|
    ensures Ordered(ctors)[i] != Ordered(ctors)[j]
  {
    var cs := Ordered(ctors);
    OrderedSpec(ctors);
    TaggedOnce(ctors, cs[i]);
    RepeatCounts(cs, i, j);
  }

  /** An element occurring at two positions is counted twice. */
  lemma RepeatCounts<T>(s: seq<T>, i: nat, j: nat)
    requires i < j < |s|
    ensures s[i] == s[j] ==> multiset(s)[s[i]] >= 2
  {
    assert s == s[..i] + [s[i]] + s[i + 1..];
    assert s[i + 1..][j - i - 1] == s[j];
    assert s[j] in multiset(s[i + 1..]);
    assert multiset(s) == multiset(s[..i]) + multiset{s[i]} + multiset(s[i + 1..]);
  }

  lemma TaggedOnce(ctors: seq<seq<TypeId>>, c: Ctor)
    ensures multiset(Tagged(ctors))[c] <= 1
  {
    var tg := Tagged(ctors);
    if c in tg {
      var k := c.index;
      assert tg[k] == c;
      assert tg == tg[..k] + [c] + tg[k + 1..];
      assert c !in tg[..k] by {
        forall x | x in tg[..k] ensures x.index < k { }
      }
      assert c !in tg[k + 1..] by {
        forall x | x in tg[k + 1..] ensures x.index > k { }
      }
      assert multiset(tg) == multiset(tg[..k]) + multiset{c} + multiset(tg[k + 1..]);
    }
  }

  /** An exception raised while creating the arguments of a constructor escapes the selection loop. */
  lemma ArgumentErrorEscapes(env: Env, st: State, t: TypeId, cs: seq<Ctor>)
    requires |cs| > 0
    requires CreateAll(env, st, cs[0].params).res.Err?
    ensures TryCtors(env, st, t, cs) == Run(Err(CreateAll(env, st, cs[0].params).res.error), CreateAll(env, st, cs[0].params).st)
  {
  }

  /**
   Creating a sequence of values stops at the first `Create` that raises: that
   exception escapes, and no later type is attempted.
   */
  lemma FirstErrorEscapes(env: Env, st: State, ts: seq<TypeId>)
    requires |ts| > 0 && Create(env, st, ts[0]).res.Err?
    ensures CreateAll(env, st, ts) == Run(Err(Create(env, st, ts[0]).res.error), Create(env, st, ts[0]).st)
  {
  }

  /**
   The first constructor whose invocation returns gives the result: the object
   is built from exactly the arguments created for it, in parameter order, and
   no later constructor is tried.
   */
  lemma InvocationSuccessReturns(env: Env, st: State, t: TypeId, cs: seq<Ctor>)
    requires |cs| > 0
    requires CreateAll(env, st, cs[0].params).res.Ok?
    requires env.invoke(t, cs[0], CreateAll(env, st, cs[0].params).res.value)
    ensures var a := CreateAll(env, st, cs[0].params);
            TryCtors(env, st, t, cs) ==
              Run(Ok(Selection([Attempt(cs[0], a.res.value, true)], Some(Object(t, cs[0], a.res.value, map[], map[])))), a.st)
  {
  }

  /**
   A failed invocation is swallowed: the loop goes on with the next
   constructor, from the state the argument creation left.
   */
  lemma InvocationFailureSwallowed(env: Env, st: State, t: TypeId, cs: seq<Ctor>)
    requires |cs| > 0
    requires CreateAll(env, st, cs[0].params).res.Ok?
    requires !env.invoke(t, cs[0], CreateAll(env, st, cs[0].params).res.value)
    ensures var a := CreateAll(env, st, cs[0].params);
            var rest := TryCtors(env, a.st, t, cs[1..]);
            var r := TryCtors(env, st, t, cs);
            && r.st == rest.st
            && r.res.Ok? == rest.res.Ok?
            && (r.res.Err? ==> r.res.error == rest.res.error)
            && (r.res.Ok? ==> r.res.value.chosen == rest.res.value.chosen
                              && r.res.value.tried == [Attempt(cs[0], a.res.value, false)] + rest.res.value.tried)
  {
  }

  // ----- member filling -----

  /** Every field and property setter of every type accepts every value. */
  ghost predicate SettersTotal(env: Env) {
    && (forall t, k, v :: env.setField(t, k, v))
    && (forall t, k, v :: env.setProp(t, k, v))
  }

  /** The setter of field `i + j` of `t` accepts `vs[j]`, for every `j`. */
  ghost predicate FieldsAccepted(env: Env, t: TypeId, i: nat, vs: seq<Value>) {
    forall j :: 0 <= j < |vs| ==> env.setField(t, i + j, vs[j])
  }

  /**
   Filling the fields from index `i` on is one fresh `Create` per field type,
   in field order, each result handed to its own field's setter: the same run
   as `CreateAll` over those types until a setter refuses. It returns exactly
   when every value is created and accepted, then in the same state with each
   field holding the value created for its position; a refused value is the
   only way to fail where `CreateAll` returns; and when no setter ever refuses,
   outcome and state are those of `CreateAll`.
   */
  lemma {:induction false} FieldsFollowCreateAll(env: Env, st: State, o: Object, i: nat)
    requires i <= |env.describe(o.ty).fields|
    ensures FieldsMatch(env, st, o, i)
    decreases |env.describe(o.ty).fields| - i
  {
    var fs := env.describe(o.ty).fields;
    if i < |fs| {
      var v := Create(env, st, fs[i]);
      if v.res.Ok? && env.setField(o.ty, i, v.res.value) {
        FieldsFollowCreateAll(env, v.st, o.(fields := o.fields[i := v.res.value]), i + 1);
      }
      FieldsMatchWrite(env, st, o, i);
    }
  }

  ghost predicate FieldsMatch(env: Env, st: State, o: Object, i: nat)
    requires i <= |env.describe(o.ty).fields|
  {
    var fs := env.describe(o.ty).fields;
    var a := CreateAll(env, st, fs[i..]);
    var f := FillFieldsFrom(env, st, o, i);
    && (f.res.Ok? <==> a.res.Ok? && FieldsAccepted(env, o.ty, i, a.res.value))
    && (f.res.Ok? ==> f.st == a.st && forall k :: i <= k < |fs| ==> f.res.value.fields[k] == a.res.value[k - i])
    && (a.res.Ok? && f.res.Err? ==> f.res.error == SetValueFailed)
    && (SettersTotal(env) ==> f.st == a.st && (f.res.Err? ==> f.res.error == a.res.error))
  }

  lemma FieldsMatchWrite(env: Env, st: State, o: Object, i: nat)
    requires i < |env.describe(o.ty).fields|
    requires var v := Create(env, st, env.describe(o.ty).fields[i]);
             v.res.Ok? && env.setField(o.ty, i, v.res.value) ==>
               FieldsMatch(env, v.st, o.(fields := o.fields[i := v.res.value]), i + 1)
    ensures FieldsMatch(env, st, o, i)
  {
    var fs := env.describe(o.ty).fields;
    assert fs[i..][0] == fs[i] && fs[i..][1..] == fs[i + 1..];
    var v := Create(env, st, fs[i]);
    if v.res.Ok? {
      if env.setField(o.ty, i, v.res.value) {
        FieldsMatchCreated(env, st, o, i);
      } else {
        FieldsMatchRefused(env, st, o, i);
      }
    }
  }

  /** `FieldsMatchWrite` when the first field's setter refuses its value. */
  lemma FieldsMatchRefused(env: Env, st: State, o: Object, i: nat)
    requires i < |env.describe(o.ty).fields|
    requires var v := Create(env, st, env.describe(o.ty).fields[i]);
             v.res.Ok? && !env.setField(o.ty, i, v.res.value)
    ensures FieldsMatch(env, st, o, i)
  {
    var fs := env.describe(o.ty).fields;
    var v := Create(env, st, fs[i]);
    assert FillFieldsFrom(env, st, o, i) == Run(Err(SetValueFailed), v.st);
    CreateAllUnfold(env, st, fs[i..]);
    assert fs[i..][0] == fs[i] && fs[i..][1..] == fs[i + 1..];
    var a := CreateAll(env, st, fs[i..]);
    if a.res.Ok? {
      assert a.res.value[0] == v.res.value;
    }
  }

  /** `FieldsMatchWrite` when the first field's `Create` returns and its setter accepts. */
  lemma FieldsMatchCreated(env: Env, st: State, o: Object, i: nat)
    requires i < |env.describe(o.ty).fields|
    requires var v := Create(env, st, env.describe(o.ty).fields[i]);
             v.res.Ok? && env.setField(o.ty, i, v.res.value)
    requires var v := Create(env, st, env.describe(o.ty).fields[i]);
             FieldsMatch(env, v.st, o.(fields := o.fields[i := v.res.value]), i + 1)
    ensures FieldsMatch(env, st, o, i)
  {
    var fs := env.describe(o.ty).fields;
    var v := Create(env, st, fs[i]);
    var next := o.(fields := o.fields[i := v.res.value]);
    FillFieldsUnfold(env, st, o, i);
    CreateAllUnfold(env, st, fs[i..]);
    assert fs[i..][0] == fs[i] && fs[i..][1..] == fs[i + 1..];
    var a1 := CreateAll(env, v.st, fs[i + 1..]);
    var f1 := FillFieldsFrom(env, v.st, next, i + 1);
    if a1.res.Ok? {
      FieldsAcceptedShift(env, o.ty, i, v.res.value, a1.res.value);
    }
    if f1.res.Ok? {
      ShiftMatch(f1.res.value.fields, v.res.value, a1.res.value, i, |fs|);
    }
  }

  /** Acceptance from `i` on of `[v] + vs` is acceptance of `v` at `i` and of `vs` from `i + 1` on. */
  lemma FieldsAcceptedShift(env: Env, t: TypeId, i: nat, v: Value, vs: seq<Value>)
    ensures FieldsAccepted(env, t, i, [v] + vs) <==> env.setField(t, i, v) && FieldsAccepted(env, t, i + 1, vs)
  {
    if env.setField(t, i, v) && FieldsAccepted(env, t, i + 1, vs) {
      forall j | 0 <= j < |[v] + vs| ensures env.setField(t, i + j, ([v] + vs)[j]) {
        if j > 0 {
          assert ([v] + vs)[j] == vs[j - 1];
        }
      }
    }
    if FieldsAccepted(env, t, i, [v] + vs) {
      assert ([v] + vs)[0] == v;
      forall j | 0 <= j < |vs| ensures env.setField(t, i + 1 + j, vs[j]) {
        assert ([v] + vs)[j + 1] == vs[j];
      }
    }
  }

  /** Values matched from position `i + 1` on, plus `v` at `i`, match `[v] + vs` from `i` on. */
  lemma ShiftMatch(m: map<nat, Value>, v: Value, vs: seq<Value>, i: nat, len: nat)
    requires i in m && m[i] == v
    requires |vs| == len - i - 1
    requires forall k :: i + 1 <= k < len ==> k in m && m[k] == vs[k - i - 1]
    ensures forall k :: i <= k < len ==> k in m && m[k] == ([v] + vs)[k - i]
  {
    forall k | i <= k < len ensures k in m && m[k] == ([v] + vs)[k - i] {
      if k > i {
        assert ([v] + vs)[k - i] == vs[k - i - 1];
      }
    }
  }

  /** One step of `FillFieldsFrom` whose `Create` returns a value the setter accepts: the value goes into field `i`. */
  lemma FillFieldsUnfold(env: Env, st: State, o: Object, i: nat)
    requires i < |env.describe(o.ty).fields|
    requires var v := Create(env, st, env.describe(o.ty).fields[i]);
             v.res.Ok? && env.setField(o.ty, i, v.res.value)
    ensures var v := Create(env, st, env.describe(o.ty).fields[i]);
            var next := o.(fields := o.fields[i := v.res.value]);
            var f1 := FillFieldsFrom(env, v.st, next, i + 1);
            && FillFieldsFrom(env, st, o, i) == f1
            && (f1.res.Ok? ==> f1.res.value.fields[i] == v.res.value)
  {
  }

  /** One step of `CreateAll` whose first `Create` returns. */
  lemma CreateAllUnfold(env: Env, st: State, ts: seq<TypeId>)
    requires |ts| > 0 && Create(env, st, ts[0]).res.Ok?
    ensures var v := Create(env, st, ts[0]);
            var a1 := CreateAll(env, v.st, ts[1..]);
            CreateAll(env, st, ts) == if a1.res.Ok? then Run(Ok([v.res.value] + a1.res.value), a1.st) else a1
  {
  }

  /** The types of the writable properties from index `i` on, in order. */
  function WritableTypes(ps: seq<Prop>, i: nat): (r: seq<TypeId>)
    decreases |ps| - i
  {
    if i >= |ps| then []
    else if ps[i].canWrite then [ps[i].ty] + WritableTypes(ps, i + 1)
    else WritableTypes(ps, i + 1)
  }

  /** How many writable properties lie in `[i, k)`. */
  function WritableBefore(ps: seq<Prop>, i: nat, k: nat): nat
    decreases k - i
  {
    if i >= k || i >= |ps| then 0
    else (if ps[i].canWrite then 1 else 0) + WritableBefore(ps, i + 1, k)
  }

  lemma {:induction false} WritableRank(ps: seq<Prop>, i: nat, k: nat)
    requires i <= k < |ps| && ps[k].canWrite
    ensures WritableBefore(ps, i, k) < |WritableTypes(ps, i)|
    ensures WritableTypes(ps, i)[WritableBefore(ps, i, k)] == ps[k].ty
    decreases k - i
  {
    if i < k {
      WritableRank(ps, i + 1, k);
    }
  }

  /**
   The setter of each writable property from index `i` on accepts the value of
   `vs` at that property's rank among the writable ones.
   */
  ghost predicate PropsAccepted(env: Env, t: TypeId, ps: seq<Prop>, i: nat, vs: seq<Value>) {
    forall k :: i <= k < |ps| && ps[k].canWrite && WritableBefore(ps, i, k) < |vs| ==>
      env.setProp(t, k, vs[WritableBefore(ps, i, k)])
  }

  /**
   Filling the properties from index `i` on is one fresh `Create` per writable
   property, in property order, each result handed to its own property's
   setter: the same run as `CreateAll` over the writable properties' types
   until a setter refuses. It returns exactly when every value is created and
   accepted, then in the same state with each writable property holding the
   value created for its rank; a refused value is the only way to fail where
   `CreateAll` returns; and when no setter ever refuses, outcome and state are
   those of `CreateAll`.
   */
  lemma {:induction false} PropsFollowCreateAll(env: Env, st: State, o: Object, i: nat)
    requires i <= |env.describe(o.ty).props|
    ensures PropsMatch(env, st, o, i)
    decreases |env.describe(o.ty).props| - i
  {
    var ps := env.describe(o.ty).props;
    if i < |ps| {
      if !ps[i].canWrite {
        PropsFollowCreateAll(env, st, o, i + 1);
        PropsMatchSkip(env, st, o, i);
      } else {
        var v := Create(env, st, ps[i].ty);
        if v.res.Ok? && env.setProp(o.ty, i, v.res.value) {
          var next := o.(props := o.props[i := v.res.value]);
          PropsFollowCreateAll(env, v.st, next, i + 1);
        }
        PropsMatchWrite(env, st, o, i);
      }
    }
  }

  ghost predicate PropsMatch(env: Env, st: State, o: Object, i: nat) {
    var ps := env.describe(o.ty).props;
    var a := CreateAll(env, st, WritableTypes(ps, i));
    var f := FillPropertiesFrom(env, st, o, i);
    && (f.res.Ok? <==> a.res.Ok? && PropsAccepted(env, o.ty, ps, i, a.res.value))
    && (f.res.Ok? ==> f.st == a.st && forall k :: i <= k < |ps| && ps[k].canWrite ==>
                        WritableBefore(ps, i, k) < |a.res.value| &&
                        f.res.value.props[k] == a.res.value[WritableBefore(ps, i, k)])
    && (a.res.Ok? && f.res.Err? ==> f.res.error == SetValueFailed)
    && (SettersTotal(env) ==> f.st == a.st && (f.res.Err? ==> f.res.error == a.res.error))
  }

  lemma PropsMatchSkip(env: Env, st: State, o: Object, i: nat)
    requires i < |env.describe(o.ty).props| && !env.describe(o.ty).props[i].canWrite
    requires PropsMatch(env, st, o, i + 1)
    ensures PropsMatch(env, st, o, i)
  {
    var ps := env.describe(o.ty).props;
    assert WritableTypes(ps, i) == WritableTypes(ps, i + 1);
    assert FillPropertiesFrom(env, st, o, i) == FillPropertiesFrom(env, st, o, i + 1);
    forall k | i <= k < |ps| && ps[k].canWrite
      ensures WritableBefore(ps, i, k) == WritableBefore(ps, i + 1, k)
    {
    }
  }

  lemma PropsMatchWrite(env: Env, st: State, o: Object, i: nat)
    requires i < |env.describe(o.ty).props| && env.describe(o.ty).props[i].canWrite
    requires var v := Create(env, st, env.describe(o.ty).props[i].ty);
             v.res.Ok? && env.setProp(o.ty, i, v.res.value) ==>
               PropsMatch(env, v.st, o.(props := o.props[i := v.res.value]), i + 1)
    ensures PropsMatch(env, st, o, i)
  {
    var ps := env.describe(o.ty).props;
    var ts := WritableTypes(ps, i);
    assert ts == [ps[i].ty] + WritableTypes(ps, i + 1);
    assert ts[0] == ps[i].ty && ts[1..] == WritableTypes(ps, i + 1);
    var v := Create(env, st, ps[i].ty);
    if v.res.Ok? {
      if env.setProp(o.ty, i, v.res.value) {
        PropsMatchCreated(env, st, o, i);
      } else {
        PropsMatchRefused(env, st, o, i);
      }
    }
  }

  /** `PropsMatchWrite` when the property's setter refuses its value. */
  lemma PropsMatchRefused(env: Env, st: State, o: Object, i: nat)
    requires i < |env.describe(o.ty).props| && env.describe(o.ty).props[i].canWrite
    requires var v := Create(env, st, env.describe(o.ty).props[i].ty);
             v.res.Ok? && !env.setProp(o.ty, i, v.res.value)
    ensures PropsMatch(env, st, o, i)
  {
    var ps := env.describe(o.ty).props;
    var ts := WritableTypes(ps, i);
    assert ts == [ps[i].ty] + WritableTypes(ps, i + 1);
    assert ts[0] == ps[i].ty && ts[1..] == WritableTypes(ps, i + 1);
    var v := Create(env, st, ps[i].ty);
    assert FillPropertiesFrom(env, st, o, i) == Run(Err(SetValueFailed), v.st);
    CreateAllUnfold(env, st, ts);
    var a := CreateAll(env, st, ts);
    if a.res.Ok? {
      assert WritableBefore(ps, i, i) == 0;
      assert a.res.value[0] == v.res.value;
    }
  }

  /** `PropsMatchWrite` when the property's `Create` returns and its setter accepts. */
  lemma PropsMatchCreated(env: Env, st: State, o: Object, i: nat)
    requires i < |env.describe(o.ty).props| && env.describe(o.ty).props[i].canWrite
    requires var v := Create(env, st, env.describe(o.ty).props[i].ty);
             v.res.Ok? && env.setProp(o.ty, i, v.res.value)
    requires var v := Create(env, st, env.describe(o.ty).props[i].ty);
             PropsMatch(env, v.st, o.(props := o.props[i := v.res.value]), i + 1)
    ensures PropsMatch(env, st, o, i)
  {
    var ps := env.describe(o.ty).props;
    var ts := WritableTypes(ps, i);
    assert ts == [ps[i].ty] + WritableTypes(ps, i + 1);
    assert ts[0] == ps[i].ty && ts[1..] == WritableTypes(ps, i + 1);
    var v := Create(env, st, ps[i].ty);
    var next := o.(props := o.props[i := v.res.value]);
    FillPropsUnfold(env, st, o, i);
    CreateAllUnfold(env, st, ts);
    var a1 := CreateAll(env, v.st, WritableTypes(ps, i + 1));
    var f1 := FillPropertiesFrom(env, v.st, next, i + 1);
    if a1.res.Ok? {
      PropsAcceptedShift(env, o.ty, ps, i, v.res.value, a1.res.value);
    }
    if f1.res.Ok? {
      RankShift(ps, f1.res.value.props, v.res.value, a1.res.value, i);
    }
  }

  /** One step of `FillPropertiesFrom` at a writable property whose `Create` returns a value the setter accepts. */
  lemma FillPropsUnfold(env: Env, st: State, o: Object, i: nat)
    requires i < |env.describe(o.ty).props| && env.describe(o.ty).props[i].canWrite
    requires var v := Create(env, st, env.describe(o.ty).props[i].ty);
             v.res.Ok? && env.setProp(o.ty, i, v.res.value)
    ensures var v := Create(env, st, env.describe(o.ty).props[i].ty);
            var next := o.(props := o.props[i := v.res.value]);
            var f1 := FillPropertiesFrom(env, v.st, next, i + 1);
            && FillPropertiesFrom(env, st, o, i) == f1
            && (f1.res.Ok? ==> i in f1.res.value.props && f1.res.value.props[i] == v.res.value)
  {
  }

  /**
   At a writable property `i`, acceptance from `i` on of `[v] + vs` is
   acceptance of `v` at `i` and of `vs` from `i + 1` on.
   */
  lemma PropsAcceptedShift(env: Env, t: TypeId, ps: seq<Prop>, i: nat, v: Value, vs: seq<Value>)
    requires i < |ps| && ps[i].canWrite
    ensures PropsAccepted(env, t, ps, i, [v] + vs) <==> env.setProp(t, i, v) && PropsAccepted(env, t, ps, i + 1, vs)
  {
    assert WritableBefore(ps, i, i) == 0;
    forall k | i < k < |ps| ensures WritableBefore(ps, i, k) == 1 + WritableBefore(ps, i + 1, k) { }
    if PropsAccepted(env, t, ps, i, [v] + vs) {
      forall k | i + 1 <= k < |ps| && ps[k].canWrite && WritableBefore(ps, i + 1, k) < |vs|
        ensures env.setProp(t, k, vs[WritableBefore(ps, i + 1, k)])
      {
        assert ([v] + vs)[WritableBefore(ps, i, k)] == vs[WritableBefore(ps, i + 1, k)];
      }
    }
    if env.setProp(t, i, v) && PropsAccepted(env, t, ps, i + 1, vs) {
      forall k | i <= k < |ps| && ps[k].canWrite && WritableBefore(ps, i, k) < |[v] + vs|
        ensures env.setProp(t, k, ([v] + vs)[WritableBefore(ps, i, k)])
      {
        if k > i {
          assert ([v] + vs)[WritableBefore(ps, i, k)] == vs[WritableBefore(ps, i + 1, k)];
        }
      }
    }
  }

  /** Values matched by rank from `i + 1` on, plus `v` at the writable property `i`, match `[v] + vs` by rank from `i` on. */
  lemma RankShift(ps: seq<Prop>, m: map<nat, Value>, v: Value, vs: seq<Value>, i: nat)
    requires i < |ps| && ps[i].canWrite
    requires i in m && m[i] == v
    requires forall k :: i + 1 <= k < |ps| && ps[k].canWrite ==>
               WritableBefore(ps, i + 1, k) < |vs| && k in m && m[k] == vs[WritableBefore(ps, i + 1, k)]
    ensures forall k :: i <= k < |ps| && ps[k].canWrite ==>
              WritableBefore(ps, i, k) < |[v] + vs| && k in m && m[k] == ([v] + vs)[WritableBefore(ps, i, k)]
  {
    forall k | i <= k < |ps| && ps[k].canWrite
      ensures WritableBefore(ps, i, k) < |[v] + vs| && k in m && m[k] == ([v] + vs)[WritableBefore(ps, i, k)]
    {
      if k > i {
        assert WritableBefore(ps, i, k) == 1 + WritableBefore(ps, i + 1, k);
      }
    }
  }

}

=== FILE: registration.dfy ===
/**
 The generator dictionary and its first-registration-wins insert policy
 (`AddGenerators`). Discovering generator classes in an assembly and
 instantiating them is outside the model: `AddGenerators` here receives the
 already instantiated generators in the order the assembly lists them.
 */
module Registration {
  import opened Types

  /** Every non-null entry is filed under the type its generator produces. */
  ghost predicate WellKeyed(reg: Registry) {
    forall k :: k in reg && reg[k].Some? ==> reg[k].value.generatedType == k
  }

  /** The first generator of `gens` that produces `k`, if any. */
  function FirstFor(gens: seq<Generator>, k: TypeId): Option<Generator> {
    if gens == [] then None
    else if gens[0].generatedType == k then Some(gens[0])
    else FirstFor(gens[1..], k)
  }

  /**
   One step of the `AddGenerators` loop: a generator is filed under its
   `generatedType` unless that key is already present, whatever it maps to.
   */
  function Register(reg: Registry, g: Generator): (r: Registry)
    ensures r.Keys == reg.Keys + {g.generatedType}
    ensures forall k :: k in reg ==> r[k] == reg[k]
    ensures g.generatedType !in reg ==> r[g.generatedType] == Some(g)
  {
    if g.generatedType in reg then reg else reg[g.generatedType := Some(g)]
  }

  /** A later generator for a type that is already registered has no effect. */
  lemma SecondRegistrationIgnored(reg: Registry, first: Generator, second: Generator)
    requires first.generatedType == second.generatedType
    ensures Register(Register(reg, first), second) == Register(reg, first)
    ensures first.generatedType !in reg ==> Register(Register(reg, first), second)[first.generatedType] == Some(first)
  {
  }

  lemma {:induction false} FirstForSnoc(gens: seq<Generator>, g: Generator, k: TypeId)
    ensures FirstFor(gens + [g], k) ==
      if FirstFor(gens, k).Some? then FirstFor(gens, k)
      else if g.generatedType == k then Some(g)
      else None
    decreases |gens|
  {
    if gens == [] {
      assert gens + [g] == [g];
    } else {
      assert (gens + [g])[1..] == gens[1..] + [g];
      FirstForSnoc(gens[1..], g, k);
    }
  }

  lemma {:induction false} FirstForProduces(gens: seq<Generator>, k: TypeId)
    ensures FirstFor(gens, k).Some? ==> FirstFor(gens, k).value.generatedType == k
    ensures FirstFor(gens, k).Some? <==> exists i :: 0 <= i < |gens| && gens[i].generatedType == k
    decreases |gens|
  {
    if gens != [] {
      FirstForProduces(gens[1..], k);
      if gens[0].generatedType != k && FirstFor(gens, k).None? {
        forall i | 0 <= i < |gens| ensures gens[i].generatedType != k {
          if i > 0 {
            assert gens[i] == gens[1..][i - 1];
          }
        }
      }
      if FirstFor(gens[1..], k).Some? {
        var i :| 0 <= i < |gens[1..]| && gens[1..][i].generatedType == k;
        assert gens[i + 1].generatedType == k;
      }
    }
  }

  /**
   `AddGenerators`: keys already present keep their generator, and every new key
   is filed with the first generator of `gens` that produces it.
   */
  method AddGenerators(reg: Registry, gens: seq<Generator>) returns (r: Registry)
    ensures forall k :: k in reg ==> k in r && r[k] == reg[k]
    ensures forall k :: k in r <==> k in reg || FirstFor(gens, k).Some?
    ensures forall k :: k in r && k !in reg ==> r[k] == FirstFor(gens, k)
    ensures WellKeyed(reg) ==> WellKeyed(r)
  {
    r := reg;
    var i := 0;
    while i < |gens|
      invariant 0 <= i <= |gens|
      invariant forall k :: k in reg ==> k in r && r[k] == reg[k]
      invariant forall k :: k in r <==> k in reg || FirstFor(gens[..i], k).Some?
      invariant forall k :: k in r && k !in reg ==> r[k] == FirstFor(gens[..i], k)
    {
      var g := gens[i];
      assert gens[..i + 1] == gens[..i] + [g];
      forall k ensures FirstFor(gens[..i + 1], k) ==
        if FirstFor(gens[..i], k).Some? then FirstFor(gens[..i], k)
        else if g.generatedType == k then Some(g)
        else None
      {
        FirstForSnoc(gens[..i], g, k);
      }
      r := Register(r, g);
      i := i + 1;
    }
    assert gens[..i] == gens;
    if WellKeyed(reg) {
      forall k | k in r && r[k].Some? ensures r[k].value.generatedType == k {
        if k !in reg {
          FirstForProduces(gens, k);
        }
      }
    }
  }
}

=== FILE: scenarios.dfy ===
/**
 Worked examples of the engine on a small universe:
 - `Int`, a value type with a registered generator that always returns 0;
 - `Pair`, a class with one constructor `(int, int)` and two writable `int` properties;
 - `Self`, a class with a parameterless constructor and a public field of type `Self`;
 - `Point`, a value type with no generator (neither generic nor a class);
 - `Holder`, a class with a parameterless constructor and a public field of type `Point`.
 Every constructor invocation returns, and in `Demo` every setter accepts its value;
 `Strict` differs only in that no field of `Holder` accepts an assignment.
 */
module Scenarios {
  import opened Types
  import opened CtorOrder
  import opened Engine

  const IntT: TypeId := 0
  const PairT: TypeId := 1
  const SelfT: TypeId := 2
  const PointT: TypeId := 3
  const HolderT: TypeId := 4

  const IntGenerator := Generator(0, IntT)

  function Describe(t: TypeId): Descriptor {
    if t == PairT then Descriptor(true, [], [[IntT, IntT]], [], [Prop(IntT, true), Prop(IntT, true)])
    else if t == SelfT then Descriptor(true, [], [[]], [SelfT], [])
    else if t == HolderT then Descriptor(true, [], [[]], [PointT], [])
    else Descriptor(false, [], [], [], [])
  }

  const Demo := Env(
    Describe,
    map[IntT := Some(IntGenerator)],
    (g: Generator, k: nat) => Some(0),
    (e: TypeId, k: nat) => Some([]),
    (d: Datum, e: TypeId) => Some(d),
    (t: TypeId, c: Ctor, args: seq<Value>) => true,
    (t: TypeId, k: nat, v: Value) => true,
    (t: TypeId, k: nat, v: Value) => true)

  /** `Demo`, except that assigning a field of `Holder` throws. */
  const Strict := Demo.(setField := (t: TypeId, k: nat, v: Value) => t != HolderT)

  /** The `Pair` object as its constructor leaves it. */
  const PairBuilt := Object(PairT, Ctor(0, [IntT, IntT]), [Prim(0), Prim(0)], map[], map[])

  /** The `Holder` object as its constructor leaves it. */
  const HolderBuilt := Object(HolderT, Ctor(0, []), [], map[], map[])

  /** `n` copies of `t`. */
  function Repeat(t: TypeId, n: nat): (r: seq<TypeId>)
    ensures |r| == n
    ensures forall i :: 0 <= i < n ==> r[i] == t
  {
    if n == 0 then [] else [t] + Repeat(t, n - 1)
  }

  lemma SingleCtorOrder(params: seq<TypeId>)
    ensures Ordered([params]) == [Ctor(0, params)]
  {
    assert Tagged([params]) == [Ctor(0, params)];
    assert SortByArity([Ctor(0, params)]) == Insert(Ctor(0, params), SortByArity([]));
  }

  /** `Int` has a registered generator: one call, value 0, guard untouched. */
  lemma IntIsGenerated(st: State)
    requires |st.stack| < Limit
    ensures Create(Demo, st, IntT) == Run(Ok(Prim(0)), State(st.stack, st.calls + 1))
  {
  }

  /** `Self` and `Holder` are built by their parameterless constructor, with no generator call. */
  lemma UnitCtorBuilds(env: Env, st: State, t: TypeId)
    requires env == Demo || env == Strict
    requires t == SelfT || t == HolderT
    ensures CreateWithConstructor(env, st, t) ==
      Run(Ok(Selection([Attempt(Ctor(0, []), [], true)], Some(Object(t, Ctor(0, []), [], map[], map[])))), st)
  {
    SingleCtorOrder([]);
    assert env.describe(t).ctors == [[]];
    assert CreateAll(env, st, []) == Run(Ok([]), st);
  }

  /** On the class path, once construction returned, `Create` is the rest of the class branch. */
  lemma ClassUnfolds(env: Env, st: State, t: TypeId)
    requires |st.stack| < Limit
    requires !HasGenerator(env, t) && !IsGeneric(env, t) && IsClass(env, t)
    requires CreateWithConstructor(env, Push(st, t), t).res.Ok?
    ensures var built := CreateWithConstructor(env, Push(st, t), t);
            Create(env, st, t) == Populate(env, st, t, built.st, built.res.value.chosen)
  {
    assert Create(env, st, t) == ClassPath(env, st, t);
  }

  /**
   How `Self` fails (that it fails at all is `EngineProps.SelfFieldNeverCreated`):
   each level pushes another `Self` until the guard is full, and the circle
   error escapes with every one of those entries still on the guard.
   */
  lemma {:induction false} SelfIsCircular(st: State)
    requires |st.stack| <= Limit
    ensures Create(Demo, st, SelfT).res == Err(CircleDependency)
    ensures Create(Demo, st, SelfT).st.stack == st.stack + Repeat(SelfT, Budget(|st.stack|))
    decreases Budget(|st.stack|)
  {
    if |st.stack| < Limit {
      var pushed := Push(st, SelfT);
      UnitCtorBuilds(Demo, pushed, SelfT);
      ClassUnfolds(Demo, st, SelfT);
      SelfIsCircular(pushed);
      SelfFieldFails(st);
      assert Repeat(SelfT, Budget(|st.stack|)) == [SelfT] + Repeat(SelfT, Budget(|pushed.stack|));
    } else {
      assert Repeat(SelfT, 0) == [];
    }
  }

  /** One level of `SelfIsCircular`: the failure of the nested `Create` for the field escapes the class branch. */
  lemma SelfFieldFails(st: State)
    requires |st.stack| < Limit
    requires Create(Demo, Push(st, SelfT), SelfT).res == Err(CircleDependency)
    ensures var pushed := Push(st, SelfT);
            var inner := Create(Demo, pushed, SelfT);
            Populate(Demo, st, SelfT, pushed, Some(Object(SelfT, Ctor(0, []), [], map[], map[]))) == Run(Err(CircleDependency), inner.st)
  {
    var pushed := Push(st, SelfT);
    var o := Object(SelfT, Ctor(0, []), [], map[], map[]);
    assert Demo.describe(SelfT).fields == [SelfT];
    assert FillFieldsFrom(Demo, pushed, o, 0) == Run(Err(CircleDependency), Create(Demo, pushed, SelfT).st);
  }

  /** After a failed `Create(Self)` on a fresh engine, the guard stays full and every later `Create` fails. */
  lemma CircleErrorPoisonsEngine(t: TypeId)
    ensures var after := Create(Demo, State([], 0), SelfT).st;
            Create(Demo, after, t) == Run(Err(CircleDependency), after)
  {
    SelfIsCircular(State([], 0));
  }

  /** The two `int` arguments of the `Pair` constructor: two generator calls. */
  lemma PairArgs()
    ensures CreateAll(Demo, State([PairT], 0), [IntT, IntT]) == Run(Ok([Prim(0), Prim(0)]), State([PairT], 2))
  {
    IntIsGenerated(State([PairT], 0));
    IntIsGenerated(State([PairT], 1));
    assert [IntT, IntT][1..] == [IntT];
    assert [IntT][1..] == [];
    assert CreateAll(Demo, State([PairT], 2), []) == Run(Ok([]), State([PairT], 2));
    assert [Prim(0)] + [] == [Prim(0)];
    assert CreateAll(Demo, State([PairT], 1), [IntT]) == Run(Ok([Prim(0)]), State([PairT], 2));
    assert [Prim(0)] + [Prim(0)] == [Prim(0), Prim(0)];
  }

  /** The only constructor of `Pair` succeeds on its first attempt. */
  lemma PairSelection()
    ensures CreateWithConstructor(Demo, State([PairT], 0), PairT) ==
      Run(Ok(Selection([Attempt(Ctor(0, [IntT, IntT]), [Prim(0), Prim(0)], true)],
                       Some(Object(PairT, Ctor(0, [IntT, IntT]), [Prim(0), Prim(0)], map[], map[])))),
          State([PairT], 2))
  {
    SingleCtorOrder([IntT, IntT]);
    PairArgs();
    assert Demo.describe(PairT).ctors == [[IntT, IntT]];
  }

  /** Both writable `int` properties of `Pair` are overwritten: two more generator calls. */
  lemma PairProps()
    ensures FillProperties(Demo, State([PairT], 2), Some(PairBuilt)) ==
      Run(Ok(PairBuilt.(props := map[0 := Prim(0), 1 := Prim(0)])), State([PairT], 4))
  {
    var o0 := PairBuilt;
    var o1 := o0.(props := map[0 := Prim(0)]);
    var o2 := o0.(props := map[0 := Prim(0), 1 := Prim(0)]);
    IntIsGenerated(State([PairT], 2));
    IntIsGenerated(State([PairT], 3));
    assert FillPropertiesFrom(Demo, State([PairT], 4), o2, 2) == Run(Ok(o2), State([PairT], 4));
    assert o1.props[1 := Prim(0)] == o2.props;
    assert FillPropertiesFrom(Demo, State([PairT], 3), o1, 1) == Run(Ok(o2), State([PairT], 4));
    assert o0.props[0 := Prim(0)] == o1.props;
  }

  /**
   `Create(Pair)`: the two-argument constructor runs with two generated
   zeros, then both writable properties are overwritten with fresh zeros;
   four generator calls, and the guard ends empty.
   */
  lemma PairIsBuilt()
    ensures Create(Demo, State([], 0), PairT) ==
      Run(Ok(Ref(Object(PairT, Ctor(0, [IntT, IntT]), [Prim(0), Prim(0)], map[], map[0 := Prim(0), 1 := Prim(0)]))), State([], 4))
  {
    var o0 := PairBuilt;
    PairSelection();
    assert IsClass(Demo, PairT) && !IsGeneric(Demo, PairT) && !HasGenerator(Demo, PairT);
    assert Push(State([], 0), PairT) == State([PairT], 0);
    ClassUnfolds(Demo, State([], 0), PairT);
    assert FillFields(Demo, State([PairT], 2), Some(o0)) == Run(Ok(o0), State([PairT], 2));
    PairProps();
  }

  /**
   `Create(Holder)`: the `Point` field gets `null` and leaves `Point` on the
   guard; the class path then pops that entry instead of its own, so `Holder`
   stays on the guard after a successful call.
   */
  lemma HolderLeaksItself()
    ensures Create(Demo, State([], 0), HolderT) ==
      Run(Ok(Ref(Object(HolderT, Ctor(0, []), [], map[0 := Null], map[]))), State([HolderT], 0))
  {
    var pushed := State([HolderT], 0);
    UnitCtorBuilds(Demo, pushed, HolderT);
    assert IsClass(Demo, HolderT) && !IsGeneric(Demo, HolderT) && !HasGenerator(Demo, HolderT);
    assert Push(State([], 0), HolderT) == pushed;
    ClassUnfolds(Demo, State([], 0), HolderT);
    HolderPopulate();
  }

  /** The class branch of `Create(Holder)` once the constructor returned: fill, then pop the top entry, `Point`. */
  lemma HolderPopulate()
    ensures Populate(Demo, State([], 0), HolderT, State([HolderT], 0), Some(HolderBuilt)) ==
      Run(Ok(Ref(HolderBuilt.(fields := map[0 := Null]))), State([HolderT], 0))
  {
    var pushed := State([HolderT], 0);
    var o0 := HolderBuilt;
    var o1 := o0.(fields := map[0 := Null]);
    var filled := State([HolderT, PointT], 0);
    HolderFields();
    assert FillProperties(Demo, filled, Some(o1)) == Run(Ok(o1), filled);
    assert Populate(Demo, State([], 0), HolderT, pushed, Some(o0)) == Finish(Demo, State([], 0), HolderT, pushed, o0, filled, o1);
    assert Finish(Demo, State([], 0), HolderT, pushed, o0, filled, o1) == Run(Ok(Ref(o1)), Pop(filled));
  }

  /** The `Point` field of `Holder` falls through: `null`, with `Point` left on the guard. */
  lemma HolderFields()
    ensures FillFields(Demo, State([HolderT], 0), Some(HolderBuilt)) ==
      Run(Ok(HolderBuilt.(fields := map[0 := Null])), State([HolderT, PointT], 0))
  {
    var o0 := HolderBuilt;
    var o1 := o0.(fields := map[0 := Null]);
    assert Create(Demo, State([HolderT], 0), PointT) == Run(Ok(Null), State([HolderT, PointT], 0));
    assert o0.fields[0 := Null] == o1.fields;
    assert FillFieldsFrom(Demo, State([HolderT, PointT], 0), o1, 1) == Run(Ok(o1), State([HolderT, PointT], 0));
  }

  /**
   `Create(Holder)` where assigning its field throws: the exception escapes the
   class path, and both `Holder` and the fallen-through `Point` stay on the
   guard.
   */
  lemma HolderAssignmentFails()
    ensures Create(Strict, State([], 0), HolderT) == Run(Err(SetValueFailed), State([HolderT, PointT], 0))
  {
    var pushed := State([HolderT], 0);
    UnitCtorBuilds(Strict, pushed, HolderT);
    assert IsClass(Strict, HolderT) && !IsGeneric(Strict, HolderT) && !HasGenerator(Strict, HolderT);
    assert Push(State([], 0), HolderT) == pushed;
    ClassUnfolds(Strict, State([], 0), HolderT);
    HolderFieldRefused();
  }

  /** Under `Strict` the `null` created for the `Point` field is refused, after `Point` was pushed. */
  lemma HolderFieldRefused()
    ensures Populate(Strict, State([], 0), HolderT, State([HolderT], 0), Some(HolderBuilt)) ==
      Run(Err(SetValueFailed), State([HolderT, PointT], 0))
  {
    var pushed := State([HolderT], 0);
    assert Create(Strict, pushed, PointT) == Run(Ok(Null), State([HolderT, PointT], 0));
    assert FillFieldsFrom(Strict, pushed, HolderBuilt, 0) == Run(Err(SetValueFailed), State([HolderT, PointT], 0));
  }
}

=== FILE: types.dfy ===
/**
 The data model of the Faker instantiation engine.

 The engine works on .NET `Type` objects through reflection. Here a type is a
 plain identifier, and everything the engine asks of a type through reflection
 is read from a `Descriptor`. Everything the engine calls but does not own
 (the generators, the list generator, `Convert.ChangeType`, constructor
 invocation and member assignment) is an oracle carried in the `Env`.
 */
module Types {

  /** A type of the host type system. */
  type TypeId = nat

  /** The opaque payload of a value a generator produced. */
  type Datum = int

  /** The depth limit of the recursion guard (`circleStack.Count >= 5`). */
  const Limit: nat := 5

  /** A public constructor: its position in the `GetConstructors()` array and its parameter types. */
  datatype Ctor = Ctor(index: nat, params: seq<TypeId>)

  /** A public instance property: its type and whether it has a setter (`CanWrite`). */
  datatype Prop = Prop(ty: TypeId, canWrite: bool)

  /** What reflection reveals about a type. A type is generic when it has type arguments. */
  datatype Descriptor = Descriptor(
    isClass: bool,
    genericArgs: seq<TypeId>,
    ctors: seq<seq<TypeId>>,
    fields: seq<TypeId>,
    props: seq<Prop>)

  /** A generator object: an identity and the type it declares it produces. */
  datatype Generator = Generator(id: nat, generatedType: TypeId)

  /** The generator dictionary. `None` stands for a key that maps to `null`. */
  type Registry = map<TypeId, Option<Generator>>

  datatype Option<+T> = None | Some(value: T)

  /**
   An object built on the class path: which constructor built it, with which
   arguments, and the values assigned afterwards to fields and properties, by
   member index. A member index that is absent still holds whatever the
   constructor left there.
   */
  datatype Object = Object(
    ty: TypeId,
    ctor: Ctor,
    args: seq<Value>,
    fields: map<nat, Value>,
    props: map<nat, Value>)

  /** A value the engine returns. */
  datatype Value =
    | Null
    | Prim(datum: Datum)                        // what a registered generator returned
    | ListOf(elem: TypeId, items: seq<Datum>)   // a `List<elem>` built by the generic path
    | Ref(obj: Object)                          // an object built on the class path

  /** The exceptions that escape `Create`. */
  datatype Error =
    | CircleDependency   // the depth guard fired
    | NullReference      // a member fill was handed `null` because no constructor succeeded
    | ConversionFailed   // `Convert.ChangeType` threw while casting a generated list
    | SetValueFailed     // a field's or property's `SetValue` threw
    | GeneratorFailed    // a registered generator or the list generator threw

  datatype Result<+T> = Ok(value: T) | Err(error: Error)

  /**
   The engine's mutable state: the recursion guard (top of stack last) and the
   number of generator invocations so far, which stands for the state of the
   shared `Random`.
   */
  datatype State = State(stack: seq<TypeId>, calls: nat)

  /** An outcome together with the state the engine is left in, also on an exception. */
  datatype Run<+T> = Run(res: Result<T>, st: State)

  /**
   The world the engine runs in: type descriptors, the generator dictionary and
   the oracles. `generate(g, k)` is `g.Generate()` as the k-th generator call,
   `listGenerate(e, k)` is the list `ListGenerator.Generate(e)` returns as the
   k-th call, `convert(d, e)` is `Convert.ChangeType(d, e)` (for these three,
   None means the call throws),
   `invoke(t, c, args)` tells whether `c.Invoke(args)` on type `t` returns, and
   `setField(t, k, v)` / `setProp(t, k, v)` tell whether `SetValue` of the k-th
   public field / property of `t` returns when given `v`. A setter can refuse
   because it throws, because the property is an indexer (no index arguments
   are passed), or because `v` does not suit the member's type.
   */
  datatype Env = Env(
    describe: TypeId -> Descriptor,
    registry: Registry,
    generate: (Generator, nat) -> Option<Datum>,
    listGenerate: (TypeId, nat) -> Option<seq<Datum>>,
    convert: (Datum, TypeId) -> Option<Datum>,
    invoke: (TypeId, Ctor, seq<Value>) -> bool,
    setField: (TypeId, nat, Value) -> bool,
    setProp: (TypeId, nat, Value) -> bool)

  /** The registry holds a non-null generator for `t`. */
  predicate HasGenerator(env: Env, t: TypeId) {
    t in env.registry && env.registry[t].Some?
  }

  predicate IsGeneric(env: Env, t: TypeId) {
    |env.describe(t).genericArgs| > 0
  }

  predicate IsClass(env: Env, t: TypeId) {
    env.describe(t).isClass
  }

  /** A type none of the three paths of `Create` handles. */
  predicate Unhandled(env: Env, t: TypeId) {
    !HasGenerator(env, t) && !IsGeneric(env, t) && !IsClass(env, t)
  }

  /** `c` is one of the public constructors of `t`. */
  predicate IsCtorOf(env: Env, t: TypeId, c: Ctor) {
    c.index < |env.describe(t).ctors| && env.describe(t).ctors[c.index] == c.params
  }

  /** One state follows another: the old stack is still at the bottom and no generator call is undone. */
  predicate Extends(before: State, after: State) {
    before.stack <= after.stack && before.calls <= after.calls
  }

  /** How many more nested `Create` calls the guard admits on a stack of height `n`. */
  function Budget(n: nat): nat {
    if n >= Limit then 0 else Limit - n
  }

  /** Exactly the fields of `t` have been assigned in `o`. */
  ghost predicate FieldsAssigned(env: Env, t: TypeId, o: Object) {
    forall k: nat :: k in o.fields <==> k < |env.describe(t).fields|
  }

  /** Exactly the writable properties of `t` have been assigned in `o`. */
  ghost predicate PropsAssigned(env: Env, t: TypeId, o: Object) {
    forall k: nat :: k in o.props <==> k < |env.describe(t).props| && env.describe(t).props[k].canWrite
  }

  /**
   `v` is a value `Create(t)` may return: a generator's output when `t` has a
   generator, a list of the first type argument for a generic `t`, a fully
   populated object of `t` for a class, and `null` otherwise.
   */
  ghost predicate Fits(env: Env, t: TypeId, v: Value)
    decreases v
  {
    match v
    case Null => Unhandled(env, t)
    case Prim(_) => HasGenerator(env, t)
    case ListOf(e, _) =>
      !HasGenerator(env, t) && IsGeneric(env, t) && e == env.describe(t).genericArgs[0]
    case Ref(o) =>
      && !HasGenerator(env, t) && !IsGeneric(env, t) && IsClass(env, t)
      && o.ty == t
      && IsCtorOf(env, t, o.ctor)
      && |o.args| == |o.ctor.params|
      && (forall i :: 0 <= i < |o.args| ==> Fits(env, o.ctor.params[i], o.args[i]))
      && FieldsAssigned(env, t, o)
      && (forall k :: k in o.fields ==> k < |env.describe(t).fields| && Fits(env, env.describe(t).fields[k], o.fields[k]))
      && PropsAssigned(env, t, o)
      && (forall k :: k in o.props ==> k < |env.describe(t).props| && Fits(env, env.describe(t).props[k].ty, o.props[k]))
  }

  /** `v` has no more than `n` levels of nested objects. */
  ghost predicate Shallow(v: Value, n: nat)
    decreases v
  {
    match v
    case Ref(o) =>
      && n > 0
      && (forall i :: 0 <= i < |o.args| ==> Shallow(o.args[i], n - 1))
      && (forall k :: k in o.fields ==> Shallow(o.fields[k], n - 1))
      && (forall k :: k in o.props ==> Shallow(o.props[k], n - 1))
    case _ => true
  }

  /** Each of `vs` fits the type at the same position of `ts`, within `n` levels. */
  ghost predicate AllFit(env: Env, ts: seq<TypeId>, vs: seq<Value>, n: nat) {
    |vs| == |ts| && forall i :: 0 <= i < |vs| ==> Fits(env, ts[i], vs[i]) && Shallow(vs[i], n)
  }

  lemma {:induction false} ShallowMono(v: Value, n: nat, m: nat)
    requires Shallow(v, n) && n <= m
    ensures Shallow(v, m)
    decreases v
  {
    match v
    case Ref(o) =>
      forall i | 0 <= i < |o.args| ensures Shallow(o.args[i], m - 1) {
        ShallowMono(o.args[i], n - 1, m - 1);
      }
      forall k | k in o.fields ensures Shallow(o.fields[k], m - 1) {
        ShallowMono(o.fields[k], n - 1, m - 1);
      }
      forall k | k in o.props ensures Shallow(o.props[k], m - 1) {
        ShallowMono(o.props[k], n - 1, m - 1);
      }
    case _ =>
  }

  lemma AllFitMono(env: Env, ts: seq<TypeId>, vs: seq<Value>, n: nat, m: nat)
    requires AllFit(env, ts, vs, n) && n <= m
    ensures AllFit(env, ts, vs, m)
  {
    forall i | 0 <= i < |vs| ensures Shallow(vs[i], m) {
      ShallowMono(vs[i], n, m);
    }
  }

  lemma MapShallowMono(mp: map<nat, Value>, n: nat, m: nat)
    requires forall k :: k in mp ==> Shallow(mp[k], n)
    requires n <= m
    ensures forall k :: k in mp ==> Shallow(mp[k], m)
  {
    forall k | k in mp ensures Shallow(mp[k], m) {
      ShallowMono(mp[k], n, m);
    }
  }
}
